=== FILE: README.md ===
# DLR backend adapters in Dafny

This project models two backend adapters of the DLR deep-learning runtime.
Each adapter wraps a third-party inference engine behind the runtime's common
model interface: discover the artifacts, bind inputs, run, read outputs.

- **Treelite adapter** (`treelite.dfy`, `csr.dfy`). It serves decision-tree
  models through the Treelite engine.
  - It finds the compiled model library in a listing.
  - At load it queries the engine for the feature count and class count. It
    runs one probe prediction to learn the real output width.
  - `SetInput` turns a dense row-major float buffer into a CSR matrix. NaN
    cells are left out, and narrower inputs count as missing columns.
  - `GetOutputShape`, `GetOutputSizeDim`, `Run` and `GetOutput` depend on
    whether an input is bound.
- **Hexagon adapter** (`hexagon.dfy`). It serves models compiled for an
  accelerator.
  - It requires exactly one `*_hexagon_model.so` in the listing.
  - It enumerates input and output tensor specs by asking the engine for
    index 0, 1, 2, … until the engine first refuses.
  - It finds inputs by name and checks rank and shape before copying into
    the engine's input staging buffer.
  - Outputs are read by index from the output staging buffer. Teardown
    closes a live graph.
- `common.dfy` holds the shared vocabulary:
  - the fatal-error outcomes;
  - the suffix test;
  - the C++ integer casts `static_cast<size_t>` (modulo 2^64) and
    `static_cast<uint32_t>` (modulo 2^32), stated explicitly.

How the model stands in for the source:

- A `LOG(FATAL)` or failing `CHECK_*` raises an exception that the caller can
  catch. The model turns it into a `Failure`/`Fail` result with an `Error`
  saying why. Each state-changing operation also states what the adapter holds
  afterwards, including the writes the source made before the failing check.
- The engines are parameters.
  - Treelite's load, query, probe, assemble and predict calls become status
    codes and answers. The prediction itself is an argument of `Run`.
  - Each Hexagon spec entry point becomes the list of tensors it describes
    (`SpecTable`). It answers an index below the list's length with that
    entry and returns a non-zero status (`None`) for every later index.
  - Hexagon's init call hands over a status, a graph id and the two staging
    buffers as `array<bv8>`. Its exec call hands over the bytes it writes.
- The Treelite adapter keeps its bound input, output buffer and
  "output computed" flag in fields of a class, which the methods update.
- The Hexagon adapter keeps its spec vectors, name vector, counts and graph
  id in fields of a class. The staging buffers are arrays written in place.
- The CSR construction is the source's nested loop (`AssembleCsr`). It is
  proved equal to specification functions built row by row. Lemmas then
  establish what the CSR matrix means:
  - each stored value sits at its column;
  - the columns within a row ascend;
  - the row pointers start at 0, never decrease, and grow by the number of
    present cells per row;
  - the total is the number of non-missing cells.
- Row offsets in the CSR specification are written with `Mul`, multiplication
  as repeated addition. This keeps the solver's arithmetic linear.
  `MulIsProduct` proves it equal to `*`, which the loop itself uses.
- Both artifact scans are written once, generic in the file names they look
  for (`ScanListing`). `InitModelArtifact` instantiates the scan with the
  source's constants.

## Model

| member | source | states |
|---|---|---|
| DlrCommon.ToSizeT | src/dlr_treelite.cc:97 | a non-negative `int64_t` keeps its value as `size_t`; a negative one lands at or above 2^63 |
| DlrCommon.ToUInt32 | src/dlr_treelite.cc:103 | the `uint32_t` cast is below 2^32, is the identity on values that fit, and never exceeds the `size_t` cast |
| TreeliteCsr.MissingCount | src/dlr_treelite.cc:112 | the number of NaN cells never exceeds the number of cells |
| TreeliteCsr.Row | src/dlr_treelite.cc:110-112 | row `i` of a row-major buffer with `numCol` columns has exactly `numCol` cells |
| TreeliteCsr.RowFits | src/dlr_treelite.cc:110-112 | proof helper: every row below the batch size lies inside the `batch x numCol` buffer the loop reads |
| TreeliteCsr.RowCounts | src/dlr_treelite.cc:112-115 | a row contributes as many values as column indices, namely its non-NaN cells |
| TreeliteCsr.RowEntryAt | src/dlr_treelite.cc:111-115 | the `m`-th stored column lies inside the row, and the `m`-th stored value is the row's cell there |
| TreeliteCsr.RowColumnsOrdered | src/dlr_treelite.cc:111-114 | a later stored column of a row is strictly greater than an earlier one |
| TreeliteCsr.RowEntries | src/dlr_treelite.cc:111-115 | each stored value is the row's cell at the stored column; the stored columns strictly ascend |
| TreeliteCsr.RowComplete | src/dlr_treelite.cc:112-114 | every non-NaN cell of a row is stored (its column appears) |
| TreeliteCsr.RowPtrLastIsDataSize | src/dlr_treelite.cc:117-121 | the last row pointer equals the number of stored values |
| TreeliteCsr.RowPtrAt | src/dlr_treelite.cc:106-117 | row pointer `k` is the number of values stored for the first `k` rows |
| TreeliteCsr.MulIsProduct | src/dlr_treelite.cc:112 | proof helper: the row offset `Mul(i, numCol)` used by the specification is the product `i * numCol` the loop computes |
| TreeliteCsr.RowInBounds | src/dlr_treelite.cc:110-112 | proof helper: the cells of row `i < rows` end within a buffer of `rows x numCol` cells |
| TreeliteCsr.RowAt | src/dlr_treelite.cc:112 | cell `c` of row `i` is the buffer's cell `i * numCol + c` |
| TreeliteCsr.MulMonotone | src/dlr_treelite.cc:110 | proof helper: a prefix of `k <= rows` rows occupies no more cells than `rows` rows |
| TreeliteCsr.CsrColumnsSize | src/dlr_treelite.cc:113-120 | the column-index array has as many entries as the value array |
| TreeliteCsr.CsrPrefix | src/dlr_treelite.cc:110-118 | the CSR arrays of the first `k` rows are prefixes of those of all rows (the loop only appends) |
| TreeliteCsr.CsrStep | src/dlr_treelite.cc:110-117 | one more row appends exactly that row's non-NaN values and their columns to the CSR arrays |
| TreeliteCsr.SliceAfterPrefix | src/dlr_treelite.cc:117 | proof helper: what is appended after a prefix sits between the prefix's length and the next row pointer |
| TreeliteCsr.CsrDataSlice | src/dlr_treelite.cc:110-117 | the values between row pointers `i` and `i+1` are exactly row `i`'s non-NaN cells |
| TreeliteCsr.CsrColumnsSlice | src/dlr_treelite.cc:110-117 | the column indices between row pointers `i` and `i+1` are exactly the columns of row `i`'s non-NaN cells |
| TreeliteCsr.CsrRowSlice | src/dlr_treelite.cc:110-118 | the values and columns between row pointers `i` and `i+1` are exactly row `i`'s non-NaN cells and their columns |
| TreeliteCsr.CsrShape | src/dlr_treelite.cc:106-122 | the three post-conditions of the CSR build: `row_ptr` has `batch+1` entries starting at 0, and `data`, `col_ind` and `row_ptr.back()` agree |
| TreeliteCsr.RowPtrStep | src/dlr_treelite.cc:110-117 | consecutive row pointers differ by the number of present cells in that row |
| TreeliteCsr.RowPtrMonotone | src/dlr_treelite.cc:117 | row pointers never decrease |
| TreeliteCsr.CsrEntryAt | src/dlr_treelite.cc:110-118 | the `m`-th entry of row `i`'s slice has a column below `numCol` and holds the buffer's cell at that row and column |
| TreeliteCsr.CsrEntries | src/dlr_treelite.cc:110-118 | every entry of row `i`'s slice has a column below `numCol` and holds the buffer's cell at that row and column |
| TreeliteCsr.CsrColumnPair | src/dlr_treelite.cc:111-117 | within row `i`'s slice, the `n`-th column is greater than the `m`-th when `m < n` |
| TreeliteCsr.CsrColumnsAscending | src/dlr_treelite.cc:111-117 | the column indices within each row's slice strictly ascend |
| TreeliteCsr.CsrColumnsBelow | src/dlr_treelite.cc:111-114 | every stored column index is below the column count read |
| TreeliteCsr.MissingCountAppend | src/dlr_treelite.cc:112 | NaN counts add over concatenated buffers |
| TreeliteCsr.CsrTotal | src/dlr_treelite.cc:110-118 | the number of stored values is the number of cells read minus the NaN cells among them |
| TreeliteCsr.AppendRow | src/dlr_treelite.cc:111-116 | the inner loop appends exactly the row's non-NaN values and their column indices, in column order |
| TreeliteCsr.AssembleCsr | src/dlr_treelite.cc:106-122 | the nested loop produces exactly the specification arrays and satisfies the three CSR post-conditions |
| Treelite.ScanListing | src/dlr_treelite.cc:12-24 | the scan fails with no-model iff no listed file is a library other than the runtime's own; otherwise the LAST such file is the model; the version file is recorded iff listed |
| Treelite.InitModelArtifact | src/dlr_treelite.cc:9-28 | fails with no-model exactly when no file ending in the library extension (other than the runtime's own library) is listed; otherwise the LAST such file is the model; `version.json` is recorded iff listed |
| Treelite.SetupTreeliteModule | src/dlr_treelite.cc:30-69 | loading succeeds iff every engine call returns 0 and the probed width does not exceed the class count; a failing call reports its own status as an engine failure, and the first failing call in source order is the one reported; the kept dims are the engine's, with output width <= buffer width |
| Treelite.ColumnsAccepted | src/dlr_treelite.cc:97-100 | for non-negative column counts, accepted iff at most the feature count; negative counts are refused while the feature count is below 2^63; an accepted count's `uint32_t` cast is within the feature count |
| Treelite.DenseToCsrShape | src/dlr_treelite.cc:102-126 | the bound input has `batch` rows, `num_feature` columns, a well-formed row pointer, and every column index below the feature count (narrower inputs are padded) |
| Treelite.MulLeftMonotone | src/dlr_treelite.cc:152-175 | proof helper: `num_row * output_size <= num_row * buffer_size` when the width does not exceed the buffer width |
| Treelite.TreeliteModel.constructor | src/dlr_treelite.cc:36-57 | one input named "data" of type "float32", one output, nothing bound, empty output |
| Treelite.TreeliteModel.GetInputName | src/dlr_treelite.cc:76-79 | succeeds iff the index is below the input count, returning "data" |
| Treelite.TreeliteModel.GetInputType | src/dlr_treelite.cc:81-84 | succeeds iff the index is below the input count, returning "float32" |
| Treelite.TreeliteModel.GetOutputType | src/dlr_treelite.cc:166-169 | succeeds iff the index is below the output count, returning "float32" |
| Treelite.TreeliteModel.SetInput | src/dlr_treelite.cc:91-135 | passes iff rank is 2, the column count passes the `size_t` check and the engine accepts; a rank or column failure reports its error and leaves the binding alone; once both checks pass, the bound input is exactly the CSR form of the buffer and computed output is invalidated, even when the engine then refuses the registration, which is reported as that engine failure |
| Treelite.TreeliteModel.GetOutputShape | src/dlr_treelite.cc:141-146 | rank 2, width is the probed output size, batch axis is -1 exactly when nothing is bound and the bound row count otherwise |
| Treelite.TreeliteModel.GetOutputSizeDim | src/dlr_treelite.cc:155-164 | rank 2; size is the product of the output shape once bound and the width alone before |
| Treelite.TreeliteModel.Run | src/dlr_treelite.cc:171-181 | refuses with input-not-bound without a bound input; otherwise resizes the output to `num_row x class count` and fills it, and a non-zero predict status is reported as that engine failure; the output counts as computed exactly when it passes |
| Treelite.TreeliteModel.GetOutputAsWritten | src/dlr_treelite.cc:148-153 | the source's check: fails iff no input is bound; copies `num_row * output_size` values, which is in bounds only under an extra precondition the adapter never establishes |
| Treelite.TreeliteModel.GetOutput | src/dlr_treelite.cc:148-153 | corrected: fails unless a bound input has been run; the copy has `GetOutputSizeDim` values and is a prefix of the output buffer |
| Treelite.TreeliteModel.GetWeightNames | src/dlr_treelite.cc:71-74 | always refused as unsupported |
| Treelite.TreeliteModel.GetWeightName | src/dlr_treelite.cc:86-89 | always refused as unsupported |
| Treelite.TreeliteModel.GetInput | src/dlr_treelite.cc:137-139 | always refused as unsupported |
| Treelite.TreeliteModel.SetNumThreads | src/dlr_treelite.cc:184-186 | always refused as unsupported |
| Treelite.TreeliteModel.UseCPUAffinity | src/dlr_treelite.cc:188-190 | always refused as unsupported |
| Treelite.Load | src/dlr_treelite.cc:9-69 | a model loads iff a model library is listed and the engine setup succeeds; with none listed it fails with no-model-file, otherwise with the setup's own error; it starts with the engine's dims and nothing bound |
| Treelite.RebindWithoutRun | src/dlr_treelite.cc:148-175 | after run-then-rebind of a larger batch, the as-written copy would not fit the output buffer, and the corrected `GetOutput` refuses |
| Treelite.RefusedRegistration | src/dlr_treelite.cc:104-134 | after a run on two rows, rebinding one row with a refused registration reports the engine status, the output shape follows the new one-row batch, and the earlier output is no longer served |
| Treelite.BinaryClassifierScenario | tests/cpp/dlr_treelite_test.cc:45-104 | the test's 1 x 69 dense input on a one-column classifier: input "data", output shape [1, 1], size 1 of rank 2, row pointer [0, 69] |
| Treelite.NoMissing | src/dlr_treelite.cc:112 | a buffer with no NaN cell has no missing cell |
| Hexagon.MatchesAmongMonotone | src/dlr_hexagon/dlr_hexagon.cc:14-21 | proof helper: scanning further into the listing never finds fewer model files |
| Hexagon.ScanListing | src/dlr_hexagon/dlr_hexagon.cc:13-29 | the scan succeeds iff exactly one file matches the model suffix; none gives no-model, a second match gives multiple-model at once; the model is the only match; the skeleton library is recorded iff listed |
| Hexagon.InitModelArtifact | src/dlr_hexagon/dlr_hexagon.cc:11-42 | succeeds iff exactly one `_hexagon_model.so` is listed (no-model for none, multiple-model for two or more); the model is that file; the skeleton library is recorded iff listed |
| Hexagon.CopySpec | src/dlr_hexagon/dlr_hexagon.cc:124-131 | the kept spec has the engine's name, rank, bytes and element count, and a shape copy of exactly `dim` entries |
| Hexagon.SpecsBefore | src/dlr_hexagon/dlr_hexagon.cc:116-141 | the specs of indices below `n` number exactly `n` |
| Hexagon.SpecsBeforeAt | src/dlr_hexagon/dlr_hexagon.cc:116-141 | the spec at position `j` is the copy of the engine's answer for index `j` |
| Hexagon.SpecsBeforeFit | src/dlr_hexagon/dlr_hexagon.cc:124-131 | specs copied from answers that fit a staging buffer keep fitting it |
| Hexagon.EnumerationValid | src/dlr_hexagon/dlr_hexagon.cc:132-152 | the enumerated inputs, their names in order and the enumerated outputs satisfy the adapter's invariant |
| Hexagon.EnumerateSpecs | src/dlr_hexagon/dlr_hexagon.cc:116-141 | asking index after index until the first refusal collects the copies of every described spec, in index order, and their names |
| Hexagon.Names | src/dlr_hexagon/dlr_hexagon.cc:136 | the name list has one entry per spec, in the same order |
| Hexagon.FindByName | src/dlr_hexagon/dlr_hexagon.cc:157-163 | returns the FIRST position with that name; fails with input-not-found iff no spec has it |
| Hexagon.CheckShape | src/dlr_hexagon/dlr_hexagon.cc:213-218 | passes iff the rank equals the spec's and each axis equals the spec's; a rank difference reports a dim mismatch, an axis difference a shape mismatch |
| Hexagon.HexagonModel.constructor | src/dlr_hexagon/dlr_hexagon.cc:54-89 | the model holds the graph id and staging buffers from init and the enumerated input and output specs and input names; the invariant holds |
| Hexagon.HexagonModel.GenTensorSpec | src/dlr_hexagon/dlr_hexagon.cc:107-142 | appends the specs of all indices before the first refusal, in order, to the input or output list (and the input names to the name list), touching nothing else |
| Hexagon.HexagonModel.InitInputOutputTensorSpecs | src/dlr_hexagon/dlr_hexagon.cc:144-152 | inputs then outputs are enumerated and their counts recorded; the invariant holds |
| Hexagon.HexagonModel.GetInputId | src/dlr_hexagon/dlr_hexagon.cc:154-164 | the first input with the given name; input-not-found iff none has it |
| Hexagon.HexagonModel.SetInput | src/dlr_hexagon/dlr_hexagon.cc:209-220 | passes iff the name is known and rank and shape match; an unknown name reports input-not-found, a rank difference a dim mismatch and an axis difference a shape mismatch; then the spec's byte count is copied to the start of the input staging buffer and the rest is untouched; on failure nothing is written |
| Hexagon.HexagonModel.GetInput | src/dlr_hexagon/dlr_hexagon.cc:222-225 | for a known name, the spec's byte count from the start of the input staging buffer |
| Hexagon.HexagonModel.GetInputName | src/dlr_hexagon/dlr_hexagon.cc:194-197 | succeeds iff the index is below the input count, returning that input's spec name |
| Hexagon.HexagonModel.GetOutputShape | src/dlr_hexagon/dlr_hexagon.cc:227-232 | succeeds iff the index is below the output count; the shape has the spec's rank entries |
| Hexagon.HexagonModel.GetOutputSizeDim | src/dlr_hexagon/dlr_hexagon.cc:239-243 | succeeds iff the index is below the output count; the size is the spec's element count and the rank equals the length of the output shape |
| Hexagon.HexagonModel.GetOutput | src/dlr_hexagon/dlr_hexagon.cc:234-237 | succeeds iff the index is below the output count; the spec's byte count from the start of the output staging buffer |
| Hexagon.HexagonModel.Run | src/dlr_hexagon/dlr_hexagon.cc:250-257 | passes iff the exec status is 0, and a non-zero status is reported as that engine failure; either way the output staging buffer holds what the engine left in it |
| Hexagon.HexagonModel.Release | src/dlr_hexagon/dlr_hexagon.cc:67-79 | close is called iff the graph id was non-zero, which detaches the staging buffers; afterwards the graph id is 0 |
| Hexagon.HexagonModel.GetWeightNames | src/dlr_hexagon/dlr_hexagon.cc:189-192 | always refused as unsupported |
| Hexagon.HexagonModel.GetInputType | src/dlr_hexagon/dlr_hexagon.cc:199-202 | always refused as unsupported |
| Hexagon.HexagonModel.GetWeightName | src/dlr_hexagon/dlr_hexagon.cc:204-207 | always refused as unsupported |
| Hexagon.HexagonModel.GetOutputType | src/dlr_hexagon/dlr_hexagon.cc:245-248 | always refused as unsupported |
| Hexagon.HexagonModel.SetNumThreads | src/dlr_hexagon/dlr_hexagon.cc:259-261 | always refused as unsupported |
| Hexagon.HexagonModel.UseCPUAffinity | src/dlr_hexagon/dlr_hexagon.cc:263-265 | always refused as unsupported |
| Hexagon.NamesAppend | src/dlr_hexagon/dlr_hexagon.cc:136 | proof helper: pushing one spec pushes its name |
| Hexagon.StageRoundTrip | src/dlr_hexagon/dlr_hexagon.cc:209-225 | what `SetInput` stages under a name, `GetInput` under that name reads back |
| Hexagon.Load | src/dlr_hexagon/dlr_hexagon.cc:54-65 | a model is built iff exactly one model file is listed and init returns 0; no model file, several model files and a non-zero init status each report their own error; it holds as many inputs and outputs as the engine describes |

## Left out

- Directory listing (`ListFilesInDirectories`), `dlopen`/`dlsym`/`FindSymbol`/`LoadSymbols`: the listing is a parameter, and symbol resolution is assumed to succeed (a failure there raises a fatal error before any model state exists, outside the adapters' logic).
- The platform constants `LIBEXT`/`LIBDLR` are taken as the Linux values `.so` and `libdlr.so`; the header defining them is not part of this model.
- `OMP_NUM_THREADS` (`getenv`/`atoi`) only picks the engine's worker count and is not modelled; neither is the `ADSP_LIBRARY_PATH` side effect (`realpath`/`setenv`) of the Hexagon artifact scan, nor the INFO logging.
- The Hexagon log buffer (`AllocateLogBuffer`, `PrintHexagonNNLog`, freeing it in the destructor): it only feeds diagnostics.
- The engines themselves: predictions, the CSR registration handle and the tensor bytes the accelerator computes are arguments, not computed.
- Floats are `real` and NaN is the `Missing` cell: no rounding, and the float-to-byte view of Treelite buffers is not modelled.
- Hexagon.HexagonModel.GetInputName: indices are `nat`; a negative `int` index passes the source's `CHECK_LT` and then reads out of bounds (undefined behaviour), which is not modelled.
- Hexagon.HexagonModel.GetOutputShape: likewise for negative indices; the same holds for `GetOutput` and `GetOutputSizeDim`.
- Hexagon.HexagonModel.Release: the `dlr_hexagon_model_close != nullptr` half of the guard is always true once loading succeeded, so it is not a parameter.
- Hexagon.HexagonModel.Run: the engine's reading of the input staging buffer is not modelled; what it writes to the output buffer, partial writes of a failed run included, is the `produced` argument and not computed. `Run` may change only the output staging buffer, so the model assumes the exec call never writes the input staging buffer it is also handed.
- Hexagon.HexagonModel.constructor: the two staging buffers handed over by init are assumed to be distinct arrays (so is `Hexagon.Load`). The source accepts any two pointers, and with one shared buffer `SetInput` would overwrite the outputs.
- The `debug_level` that the Hexagon constructor stores and passes to the init entry point is not modelled: it only sets the engine's logging verbosity.
- Treelite.TreeliteModel.GetOutputSizeDim: the 64-bit product `num_row * output_size` is unbounded here, so its wrap-around for absurd batch sizes is not modelled.
- Hexagon's engine answers are assumed well formed (`0 <= dim <= |shape|`, non-negative byte counts within the staging buffers); the source trusts the engine for these.
- A spec entry point that answers again after its first refusal cannot be expressed as a `SpecTable`; the adapter never asks past the first refusal, so nothing it does depends on such answers.
- A `SpecTable` is finite, so the model assumes each spec entry point eventually refuses. On one that never refuses, the source's `while (true)` enumeration does not end, and its `int` index overflows.
- Treelite.TreeliteModel.SetInput: the caller's buffer is assumed to hold the `batch x columns` floats the loop reads; the source trusts its caller for that.
- Treelite.TreeliteModel.SetInput: allocation failure of the CSR vectors is not modelled. A negative `shape[0]` is bound as a batch of `2^64 + shape[0]` rows and passes (with zero columns no cells are needed). In the source, `row_ptr.push_back` throws long before so many rows are pushed, leaving the half-built input bound. A later `GetOutputShape` then reports that row count unbounded, not through the source's `int64_t` cast.
- Hexagon.HexagonModel.SetInput: the caller's buffer is assumed to hold the input spec's byte count, and `shape` to have at least the spec's rank of entries; the source's `memcpy` and its axis loop trust the caller for these.

## Findings

| source | as written | input that shows it | evidently intended | confidence | as-written member | corrected member |
|---|---|---|---|---|---|---|
| src/dlr_treelite.cc:148-153 | `GetOutput` only checks that an input is bound, then copies `num_row * output_size` floats from the output buffer | `SetInput` with shape [1, 1], `Run`, then `SetInput` with shape [2, 1], then `GetOutput`: the buffer holds 1 float and 2 are copied (calling `GetOutput` with no `Run` at all copies from an empty buffer) | refuse (or run) unless the output buffer was computed for the currently bound input | medium; not executed | Treelite.TreeliteModel.GetOutputAsWritten, Treelite.RebindWithoutRun | Treelite.TreeliteModel.GetOutput |

=== FILE: common.dfy ===
/**
 Shared vocabulary of the two backend adapters: the fatal-error outcomes that
 `LOG(FATAL)` and `CHECK_*` raise, file-name suffix tests and the integer
 conversions of C++ (`size_t`, `uint32_t`).
 */
module DlrCommon {

  /** Why a call raised a fatal log message, which the caller sees as an exception. */
  datatype Error =
    | NoModelFile                  // no file matches the backend's model pattern
    | MultipleModelFiles           // more than one `*_hexagon_model.so`
    | EngineFailure(status: int)   // a non-zero status from the wrapped engine
    | OutputWidthExceedsClasses    // the probe prediction is wider than the class count
    | DimMismatch                  // input dimensionality differs from what is expected
    | ShapeMismatch                // an input axis differs, or too many columns
    | IndexOutOfRange              // tensor index not below the tensor count
    | InputNotFound(name: string)  // no input tensor has that name
    | InputNotBound                // an operation that needs SetInput came first
    | OutputNotComputed            // GetOutput without a Run since the last SetInput
    | Unsupported(op: string)      // the backend has no such capability

  datatype Option<+T> = None | Some(value: T)

  /** A call that yields a value or dies with an error. */
  datatype Result<+T> = Success(value: T) | Failure(error: Error)

  /** A call that yields nothing or dies with an error. */
  datatype Outcome = Pass | Fail(error: Error)

  /** `EndsWith(s, suffix)` of the runtime's string helpers. */
  predicate EndsWith(s: string, suffix: string)
  {
    |suffix| <= |s| && s[|s| - |suffix|..] == suffix
  }

  const SizeTModulus: int := 0x1_0000_0000_0000_0000
  const UInt32Modulus: int := 0x1_0000_0000

  /** Values a C++ `int64_t` can hold. */
  type Int64 = x: int | -SizeTModulus / 2 <= x < SizeTModulus / 2

  /** Values a C++ `size_t` can hold. */
  type SizeT = x: int | 0 <= x < SizeTModulus

  /** `static_cast<size_t>(x)`: two's-complement reinterpretation, modulo 2^64. */
  function ToSizeT(x: Int64): (r: SizeT)
    ensures 0 <= x ==> r == x
    ensures x < 0 ==> r >= SizeTModulus / 2
  {
    x % SizeTModulus
  }

  /** `static_cast<uint32_t>(x)`: truncation to the low 32 bits. */
  function ToUInt32(x: Int64): (r: nat)
    ensures r < UInt32Modulus
    ensures 0 <= x < UInt32Modulus ==> r == x
    ensures r <= ToSizeT(x)
  {
    x % UInt32Modulus
  }
}

=== FILE: csr.dfy ===
/**
 The dense-to-CSR conversion of the decision-tree adapter's `SetInput`: a
 row-major matrix whose NaN cells mean "missing" becomes the triple
 (`data`, `col_ind`, `row_ptr`) of compressed sparse rows. The triple is
 specified by functions that consume the matrix row by row; the lemmas state
 the CSR invariants; `AssembleCsr` is the nested loop that builds it.
 */
module TreeliteCsr {

  /** One float cell of the caller's buffer: NaN is `Missing`. */
  datatype Cell = Missing | Val(v: real)

  /** Number of missing cells in `cells`. */
  function MissingCount(cells: seq<Cell>): (n: nat)
    ensures n <= |cells|
  {
    if cells == [] then 0
    else MissingCount(cells[..|cells| - 1]) + (if cells[|cells| - 1].Missing? then 1 else 0)
  }

  /** The values of the non-missing cells of one row, left to right. */
  function RowValues(row: seq<Cell>): seq<real>
  {
    if row == [] then []
    else RowValues(row[..|row| - 1]) + (if row[|row| - 1].Val? then [row[|row| - 1].v] else [])
  }

  /** The column of each non-missing cell of one row, left to right. */
  function RowColumns(row: seq<Cell>): seq<nat>
  {
    if row == [] then []
    else RowColumns(row[..|row| - 1]) + (if row[|row| - 1].Val? then [|row| - 1] else [])
  }

  /** `a * b` as repeated addition. Row offsets are written with it so that the
      solver reasons about them linearly; `MulIsProduct` ties it to `*`. */
  function Mul(a: nat, b: nat): nat
  {
    if a == 0 then 0 else Mul(a - 1, b) + b
  }

  lemma {:induction false} MulIsProduct(a: nat, b: nat)
    ensures Mul(a, b) == a * b
  {
    if a > 0 {
      MulIsProduct(a - 1, b);
    }
  }

  /** Row `i` of a row-major matrix with `numCol` columns. */
  function Row(cells: seq<Cell>, i: nat, numCol: nat): (row: seq<Cell>)
    requires Mul(i + 1, numCol) <= |cells|
    ensures |row| == numCol
  {
    cells[Mul(i, numCol) .. Mul(i, numCol) + numCol]
  }

  lemma RowFits(i: nat, rows: nat, numCol: nat)
    requires i < rows
    ensures Mul(i + 1, numCol) <= Mul(rows, numCol)
  {
    MulMonotone(i + 1, rows, numCol);
  }

  /** Row `i` of a `rows x numCol` matrix ends within a buffer that holds the matrix. */
  lemma RowInBounds(i: nat, rows: nat, numCol: nat, size: nat)
    requires i < rows && Mul(rows, numCol) <= size
    ensures Mul(i, numCol) + numCol <= size
  {
    RowFits(i, rows, numCol);
  }

  /** `data` after the first `rows` rows. */
  function CsrData(cells: seq<Cell>, rows: nat, numCol: nat): seq<real>
    requires Mul(rows, numCol) <= |cells|
  {
    if rows == 0 then []
    else
      RowFits(rows - 1, rows, numCol);
      CsrData(cells, rows - 1, numCol) + RowValues(Row(cells, rows - 1, numCol))
  }

  /** `col_ind` after the first `rows` rows. */
  function CsrColumns(cells: seq<Cell>, rows: nat, numCol: nat): seq<nat>
    requires Mul(rows, numCol) <= |cells|
  {
    if rows == 0 then []
    else
      RowFits(rows - 1, rows, numCol);
      CsrColumns(cells, rows - 1, numCol) + RowColumns(Row(cells, rows - 1, numCol))
  }

  /** `row_ptr` after the first `rows` rows: `[0]`, then the size of `data` after each row. */
  function CsrRowPtr(cells: seq<Cell>, rows: nat, numCol: nat): seq<nat>
    requires Mul(rows, numCol) <= |cells|
  {
    if rows == 0 then [0]
    else
      RowFits(rows - 1, rows, numCol);
      CsrRowPtr(cells, rows - 1, numCol) + [|CsrData(cells, rows, numCol)|]
  }

  // ---------------------------------------------------------------------------
  // One row

  /** A row keeps one value and one column per non-missing cell. */
  lemma {:induction false} RowCounts(row: seq<Cell>)
    ensures |RowValues(row)| == |RowColumns(row)| == |row| - MissingCount(row)
  {
    if row != [] {
      RowCounts(row[..|row| - 1]);
    }
  }

  /** Stored entry `m` of a row: its column lies in the row and the row holds
      its value there. */
  lemma {:induction false} RowEntryAt(row: seq<Cell>, m: nat)
    requires m < |RowColumns(row)|
    ensures |RowValues(row)| == |RowColumns(row)|
    ensures RowColumns(row)[m] < |row| && row[RowColumns(row)[m]] == Val(RowValues(row)[m])
  {
    RowCounts(row);
    var init := row[..|row| - 1];
    RowCounts(init);
    if m < |RowColumns(init)| {
      RowEntryAt(init, m);
      assert row[RowColumns(init)[m]] == init[RowColumns(init)[m]];
    }
  }

  /** Stored columns of a row strictly ascend. */
  lemma {:induction false} RowColumnsOrdered(row: seq<Cell>, m: nat, n: nat)
    requires m < n < |RowColumns(row)|
    ensures RowColumns(row)[m] < RowColumns(row)[n]
  {
    var init := row[..|row| - 1];
    if n < |RowColumns(init)| {
      RowColumnsOrdered(init, m, n);
    } else {
      RowEntryAt(init, m);
    }
  }

  /** Within a row the stored columns are strictly ascending and below the row
      length, and each stored value is the non-missing cell at its column. */
  lemma RowEntries(row: seq<Cell>)
    ensures |RowValues(row)| == |RowColumns(row)|
    ensures forall m :: 0 <= m < |RowColumns(row)| ==>
      RowColumns(row)[m] < |row| && row[RowColumns(row)[m]] == Val(RowValues(row)[m])
    ensures forall m, n :: 0 <= m < n < |RowColumns(row)| ==> RowColumns(row)[m] < RowColumns(row)[n]
  {
    RowCounts(row);
    forall m | 0 <= m < |RowColumns(row)|
      ensures RowColumns(row)[m] < |row| && row[RowColumns(row)[m]] == Val(RowValues(row)[m])
    {
      RowEntryAt(row, m);
    }
    forall m, n | 0 <= m < n < |RowColumns(row)|
      ensures RowColumns(row)[m] < RowColumns(row)[n]
    {
      RowColumnsOrdered(row, m, n);
    }
  }

  /** Every column index in a row is present in it: no non-missing cell is dropped. */
  lemma {:induction false} RowComplete(row: seq<Cell>, j: nat)
    requires j < |row| && row[j].Val?
    ensures j in RowColumns(row)
  {
    if j < |row| - 1 {
      RowComplete(row[..|row| - 1], j);
    }
  }

  // ---------------------------------------------------------------------------
  // The whole matrix

  lemma {:induction false} RowPtrLastIsDataSize(cells: seq<Cell>, rows: nat, numCol: nat)
    requires Mul(rows, numCol) <= |cells|
    ensures |CsrRowPtr(cells, rows, numCol)| == rows + 1
    ensures CsrRowPtr(cells, rows, numCol)[rows] == |CsrData(cells, rows, numCol)|
  {
    if rows > 0 {
      RowFits(rows - 1, rows, numCol);
      RowPtrLastIsDataSize(cells, rows - 1, numCol);
    }
  }

  /** `row_ptr[k]` is the size of `data` once `k` rows are stored. */
  lemma {:induction false} RowPtrAt(cells: seq<Cell>, rows: nat, numCol: nat, k: nat)
    requires Mul(rows, numCol) <= |cells| && k <= rows
    ensures Mul(k, numCol) <= |cells|
    ensures |CsrRowPtr(cells, rows, numCol)| == rows + 1
    ensures CsrRowPtr(cells, rows, numCol)[k] == |CsrData(cells, k, numCol)|
  {
    RowPtrLastIsDataSize(cells, rows, numCol);
    if k < rows {
      RowFits(k, rows, numCol);
      RowFits(rows - 1, rows, numCol);
      RowPtrAt(cells, rows - 1, numCol, k);
    }
  }

  lemma {:induction false} MulMonotone(k: nat, rows: nat, numCol: nat)
    requires k <= rows
    ensures Mul(k, numCol) <= Mul(rows, numCol)
  {
    if k < rows {
      MulMonotone(k, rows - 1, numCol);
    }
  }

  /** `data` and `col_ind` grow in step. */
  lemma {:induction false} CsrColumnsSize(cells: seq<Cell>, rows: nat, numCol: nat)
    requires Mul(rows, numCol) <= |cells|
    ensures |CsrColumns(cells, rows, numCol)| == |CsrData(cells, rows, numCol)|
  {
    if rows > 0 {
      RowFits(rows - 1, rows, numCol);
      CsrColumnsSize(cells, rows - 1, numCol);
      RowCounts(Row(cells, rows - 1, numCol));
    }
  }

  /** The CSR arrays of the first `k` rows are prefixes of those of all rows. */
  lemma {:induction false} CsrPrefix(cells: seq<Cell>, rows: nat, numCol: nat, k: nat)
    requires Mul(rows, numCol) <= |cells| && k <= rows
    ensures Mul(k, numCol) <= |cells|
    ensures CsrData(cells, k, numCol) <= CsrData(cells, rows, numCol)
    ensures CsrColumns(cells, k, numCol) <= CsrColumns(cells, rows, numCol)
  {
    MulMonotone(k, rows, numCol);
    if k < rows {
      RowFits(rows - 1, rows, numCol);
      CsrPrefix(cells, rows - 1, numCol, k);
      var d := CsrData(cells, rows - 1, numCol);
      var c := CsrColumns(cells, rows - 1, numCol);
      assert d <= CsrData(cells, rows, numCol);
      assert c <= CsrColumns(cells, rows, numCol);
    }
  }

  /** Storing row `i` appends its values and columns to those of the rows before. */
  lemma CsrStep(cells: seq<Cell>, rows: nat, numCol: nat, i: nat)
    requires Mul(rows, numCol) <= |cells| && i < rows
    ensures Mul(i + 1, numCol) <= |cells|
    ensures CsrData(cells, i + 1, numCol) == CsrData(cells, i, numCol) + RowValues(Row(cells, i, numCol))
    ensures CsrColumns(cells, i + 1, numCol) == CsrColumns(cells, i, numCol) + RowColumns(Row(cells, i, numCol))
  {
    RowFits(i, rows, numCol);
    RowFits(i, i + 1, numCol);
  }

  /** When `front + mid` is a prefix of `whole`, `mid` sits right after `front`. */
  lemma SliceAfterPrefix<T>(whole: seq<T>, front: seq<T>, mid: seq<T>)
    requires front + mid <= whole
    ensures whole[|front|..|front| + |mid|] == mid
  {
    assert whole[..|front| + |mid|] == front + mid;
  }

  /** Row `i`'s slice `[row_ptr[i], row_ptr[i+1])` of `data` holds exactly that
      row's non-missing values. */
  lemma CsrDataSlice(cells: seq<Cell>, rows: nat, numCol: nat, i: nat)
    requires Mul(rows, numCol) <= |cells| && i < rows
    ensures Mul(i + 1, numCol) <= |cells|
    ensures |CsrRowPtr(cells, rows, numCol)| == rows + 1
    ensures CsrRowPtr(cells, rows, numCol)[i] <= CsrRowPtr(cells, rows, numCol)[i + 1] <= |CsrData(cells, rows, numCol)|
    ensures CsrData(cells, rows, numCol)[CsrRowPtr(cells, rows, numCol)[i]..CsrRowPtr(cells, rows, numCol)[i + 1]]
      == RowValues(Row(cells, i, numCol))
  {
    RowFits(i, rows, numCol);
    var rp := CsrRowPtr(cells, rows, numCol);
    var front, mid := CsrData(cells, i, numCol), RowValues(Row(cells, i, numCol));
    assert |rp| == rows + 1 && rp[i] == |front| && rp[i + 1] == |CsrData(cells, i + 1, numCol)| by {
      RowPtrAt(cells, rows, numCol, i);
      RowPtrAt(cells, rows, numCol, i + 1);
    }
    assert CsrData(cells, i + 1, numCol) == front + mid by {
      CsrStep(cells, rows, numCol, i);
    }
    assert front + mid <= CsrData(cells, rows, numCol) by {
      CsrPrefix(cells, rows, numCol, i + 1);
    }
    SliceAfterPrefix(CsrData(cells, rows, numCol), front, mid);
  }

  /** Row `i`'s slice `[row_ptr[i], row_ptr[i+1])` of `col_ind` holds exactly the
      columns of that row's non-missing cells. */
  lemma CsrColumnsSlice(cells: seq<Cell>, rows: nat, numCol: nat, i: nat)
    requires Mul(rows, numCol) <= |cells| && i < rows
    ensures Mul(i + 1, numCol) <= |cells|
    ensures |CsrRowPtr(cells, rows, numCol)| == rows + 1
    ensures CsrRowPtr(cells, rows, numCol)[i] <= CsrRowPtr(cells, rows, numCol)[i + 1] <= |CsrColumns(cells, rows, numCol)|
    ensures CsrColumns(cells, rows, numCol)[CsrRowPtr(cells, rows, numCol)[i]..CsrRowPtr(cells, rows, numCol)[i + 1]]
      == RowColumns(Row(cells, i, numCol))
  {
    RowFits(i, rows, numCol);
    var rp := CsrRowPtr(cells, rows, numCol);
    var front, mid := CsrColumns(cells, i, numCol), RowColumns(Row(cells, i, numCol));
    assert |rp| == rows + 1 && rp[i] == |front| && rp[i + 1] == |CsrColumns(cells, i + 1, numCol)| by {
      RowPtrAt(cells, rows, numCol, i);
      RowPtrAt(cells, rows, numCol, i + 1);
      CsrColumnsSize(cells, i, numCol);
      CsrColumnsSize(cells, i + 1, numCol);
    }
    assert CsrColumns(cells, i + 1, numCol) == front + mid by {
      CsrStep(cells, rows, numCol, i);
    }
    assert front + mid <= CsrColumns(cells, rows, numCol) by {
      CsrPrefix(cells, rows, numCol, i + 1);
    }
    SliceAfterPrefix(CsrColumns(cells, rows, numCol), front, mid);
  }

  /** Row `i`'s slice of `data` and `col_ind` holds exactly that row's
      non-missing values and their columns. */
  lemma CsrRowSlice(cells: seq<Cell>, rows: nat, numCol: nat, i: nat)
    requires Mul(rows, numCol) <= |cells| && i < rows
    ensures Mul(i + 1, numCol) <= |cells|
    ensures |CsrRowPtr(cells, rows, numCol)| == rows + 1
    ensures |CsrColumns(cells, rows, numCol)| == |CsrData(cells, rows, numCol)|
    ensures CsrRowPtr(cells, rows, numCol)[i] <= CsrRowPtr(cells, rows, numCol)[i + 1] <= |CsrData(cells, rows, numCol)|
    ensures CsrData(cells, rows, numCol)[CsrRowPtr(cells, rows, numCol)[i]..CsrRowPtr(cells, rows, numCol)[i + 1]]
      == RowValues(Row(cells, i, numCol))
    ensures CsrColumns(cells, rows, numCol)[CsrRowPtr(cells, rows, numCol)[i]..CsrRowPtr(cells, rows, numCol)[i + 1]]
      == RowColumns(Row(cells, i, numCol))
  {
    CsrDataSlice(cells, rows, numCol, i);
    CsrColumnsSlice(cells, rows, numCol, i);
    CsrColumnsSize(cells, rows, numCol);
  }

  /** The invariants `SetInput` checks after the loop: `|data| == |col_ind| ==
      row_ptr.back()` and `|row_ptr| == batch_size + 1`; also `row_ptr[0] == 0`. */
  lemma {:induction false} CsrShape(cells: seq<Cell>, rows: nat, numCol: nat)
    requires Mul(rows, numCol) <= |cells|
    ensures |CsrRowPtr(cells, rows, numCol)| == rows + 1
    ensures CsrRowPtr(cells, rows, numCol)[0] == 0
    ensures |CsrData(cells, rows, numCol)| == |CsrColumns(cells, rows, numCol)| == CsrRowPtr(cells, rows, numCol)[rows]
  {
    RowPtrAt(cells, rows, numCol, 0);
    RowPtrLastIsDataSize(cells, rows, numCol);
    CsrColumnsSize(cells, rows, numCol);
  }

  /** Consecutive `row_ptr` entries differ by the number of non-missing cells
      of the row between them. */
  lemma RowPtrStep(cells: seq<Cell>, rows: nat, numCol: nat, i: nat)
    requires Mul(rows, numCol) <= |cells| && i < rows
    ensures Mul(i + 1, numCol) <= |cells|
    ensures |CsrRowPtr(cells, rows, numCol)| == rows + 1
    ensures CsrRowPtr(cells, rows, numCol)[i + 1]
      == CsrRowPtr(cells, rows, numCol)[i] + (numCol - MissingCount(Row(cells, i, numCol)))
  {
    CsrRowSlice(cells, rows, numCol, i);
    RowCounts(Row(cells, i, numCol));
  }

  /** `row_ptr` is non-decreasing. */
  lemma RowPtrMonotone(cells: seq<Cell>, rows: nat, numCol: nat, i: nat, k: nat)
    requires Mul(rows, numCol) <= |cells| && i <= k <= rows
    ensures |CsrRowPtr(cells, rows, numCol)| == rows + 1
    ensures CsrRowPtr(cells, rows, numCol)[i] <= CsrRowPtr(cells, rows, numCol)[k]
  {
    RowPtrAt(cells, rows, numCol, i);
    RowPtrAt(cells, rows, numCol, k);
    CsrPrefix(cells, k, numCol, i);
  }

  /** Cell `c` of row `i` is cell `i * numCol + c` of the row-major buffer. */
  lemma RowAt(cells: seq<Cell>, i: nat, numCol: nat, c: nat)
    requires (i + 1) * numCol <= |cells| && c < numCol
    ensures Mul(i + 1, numCol) <= |cells| && i * numCol + c < |cells|
    ensures Row(cells, i, numCol)[c] == cells[i * numCol + c]
  {
    MulIsProduct(i, numCol);
    MulIsProduct(i + 1, numCol);
  }

  /** Entry `m` of row `i`'s slice has a column below `numCol` and holds the
      non-missing cell of row `i` at that column. */
  lemma CsrEntryAt(cells: seq<Cell>, rows: nat, numCol: nat, i: nat, m: nat)
    requires Mul(rows, numCol) <= |cells| && i < rows
    requires Mul(i + 1, numCol) <= |cells| && m < |RowColumns(Row(cells, i, numCol))|
    ensures |CsrRowPtr(cells, rows, numCol)| == rows + 1
    ensures CsrRowPtr(cells, rows, numCol)[i] + m < CsrRowPtr(cells, rows, numCol)[i + 1] <= |CsrData(cells, rows, numCol)|
    ensures |CsrColumns(cells, rows, numCol)| == |CsrData(cells, rows, numCol)|
    ensures var k := CsrRowPtr(cells, rows, numCol)[i] + m;
      && CsrColumns(cells, rows, numCol)[k] < numCol
      && Row(cells, i, numCol)[CsrColumns(cells, rows, numCol)[k]] == Val(CsrData(cells, rows, numCol)[k])
  {
    CsrRowSlice(cells, rows, numCol, i);
    var row := Row(cells, i, numCol);
    RowEntryAt(row, m);
    var lo := CsrRowPtr(cells, rows, numCol)[i];
    var hi := CsrRowPtr(cells, rows, numCol)[i + 1];
    var data := CsrData(cells, rows, numCol);
    var cols := CsrColumns(cells, rows, numCol);
    assert cols[lo + m] == cols[lo..hi][m] == RowColumns(row)[m];
    assert data[lo + m] == data[lo..hi][m] == RowValues(row)[m];
  }

  /** Every stored entry `k` of row `i` has a column below `numCol` and `data[k]`
      is the non-missing cell of row `i` at column `col_ind[k]`, that is
      `input[i * numCol + col_ind[k]]` (`RowAt`). */
  lemma CsrEntries(cells: seq<Cell>, rows: nat, numCol: nat, i: nat)
    requires Mul(rows, numCol) <= |cells| && i < rows
    ensures Mul(i + 1, numCol) <= |cells|
    ensures |CsrRowPtr(cells, rows, numCol)| == rows + 1
    ensures |CsrColumns(cells, rows, numCol)| == |CsrData(cells, rows, numCol)|
    ensures CsrRowPtr(cells, rows, numCol)[i + 1] <= |CsrData(cells, rows, numCol)|
    ensures forall k :: CsrRowPtr(cells, rows, numCol)[i] <= k < CsrRowPtr(cells, rows, numCol)[i + 1] ==>
      CsrColumns(cells, rows, numCol)[k] < numCol &&
      Row(cells, i, numCol)[CsrColumns(cells, rows, numCol)[k]] == Val(CsrData(cells, rows, numCol)[k])
  {
    CsrColumnsSlice(cells, rows, numCol, i);
    CsrColumnsSize(cells, rows, numCol);
    var lo := CsrRowPtr(cells, rows, numCol)[i];
    var hi := CsrRowPtr(cells, rows, numCol)[i + 1];
    assert hi - lo == |RowColumns(Row(cells, i, numCol))|;
    forall k | lo <= k < hi
      ensures CsrColumns(cells, rows, numCol)[k] < numCol
      ensures Row(cells, i, numCol)[CsrColumns(cells, rows, numCol)[k]] == Val(CsrData(cells, rows, numCol)[k])
    {
      CsrEntryAt(cells, rows, numCol, i, k - lo);
    }
  }

  /** Of two entries `m < n` of row `i`'s slice, the first has the smaller column. */
  lemma CsrColumnPair(cells: seq<Cell>, rows: nat, numCol: nat, i: nat, m: nat, n: nat)
    requires Mul(rows, numCol) <= |cells| && i < rows
    requires Mul(i + 1, numCol) <= |cells| && m < n < |RowColumns(Row(cells, i, numCol))|
    ensures |CsrRowPtr(cells, rows, numCol)| == rows + 1
    ensures CsrRowPtr(cells, rows, numCol)[i] + n < CsrRowPtr(cells, rows, numCol)[i + 1] <= |CsrColumns(cells, rows, numCol)|
    ensures CsrColumns(cells, rows, numCol)[CsrRowPtr(cells, rows, numCol)[i] + m]
          < CsrColumns(cells, rows, numCol)[CsrRowPtr(cells, rows, numCol)[i] + n]
  {
    CsrColumnsSlice(cells, rows, numCol, i);
    var row := Row(cells, i, numCol);
    RowColumnsOrdered(row, m, n);
    var lo := CsrRowPtr(cells, rows, numCol)[i];
    var hi := CsrRowPtr(cells, rows, numCol)[i + 1];
    var cols := CsrColumns(cells, rows, numCol);
    assert cols[lo + m] == cols[lo..hi][m];
    assert cols[lo + n] == cols[lo..hi][n];
  }

  /** The column indices stored for one row ascend strictly. */
  lemma CsrColumnsAscending(cells: seq<Cell>, rows: nat, numCol: nat, i: nat)
    requires Mul(rows, numCol) <= |cells| && i < rows
    ensures |CsrRowPtr(cells, rows, numCol)| == rows + 1
    ensures CsrRowPtr(cells, rows, numCol)[i] <= CsrRowPtr(cells, rows, numCol)[i + 1] <= |CsrColumns(cells, rows, numCol)|
    ensures forall k, l :: CsrRowPtr(cells, rows, numCol)[i] <= k < l < CsrRowPtr(cells, rows, numCol)[i + 1] ==>
      CsrColumns(cells, rows, numCol)[k] < CsrColumns(cells, rows, numCol)[l]
  {
    RowFits(i, rows, numCol);
    assert |CsrRowPtr(cells, rows, numCol)| == rows + 1
      && CsrRowPtr(cells, rows, numCol)[i] <= CsrRowPtr(cells, rows, numCol)[i + 1] <= |CsrColumns(cells, rows, numCol)|
      && CsrRowPtr(cells, rows, numCol)[i + 1] - CsrRowPtr(cells, rows, numCol)[i] == |RowColumns(Row(cells, i, numCol))|
    by {
      CsrColumnsSlice(cells, rows, numCol, i);
    }
    var lo := CsrRowPtr(cells, rows, numCol)[i];
    var hi := CsrRowPtr(cells, rows, numCol)[i + 1];
    forall k, l | lo <= k < l < hi
      ensures CsrColumns(cells, rows, numCol)[k] < CsrColumns(cells, rows, numCol)[l]
    {
      CsrColumnPair(cells, rows, numCol, i, k - lo, l - lo);
    }
  }

  /** Every stored column index is below the column count the loop walked. */
  lemma {:induction false} CsrColumnsBelow(cells: seq<Cell>, rows: nat, numCol: nat)
    requires Mul(rows, numCol) <= |cells|
    ensures forall k :: 0 <= k < |CsrColumns(cells, rows, numCol)| ==> CsrColumns(cells, rows, numCol)[k] < numCol
  {
    if rows > 0 {
      RowFits(rows - 1, rows, numCol);
      CsrColumnsBelow(cells, rows - 1, numCol);
      RowEntries(Row(cells, rows - 1, numCol));
    }
  }

  /** Missing cells of a concatenation add up. */
  lemma {:induction false} MissingCountAppend(a: seq<Cell>, b: seq<Cell>)
    ensures MissingCount(a + b) == MissingCount(a) + MissingCount(b)
  {
    if b != [] {
      assert (a + b)[..|a + b| - 1] == a + b[..|b| - 1];
      assert (a + b)[|a + b| - 1] == b[|b| - 1];
      MissingCountAppend(a, b[..|b| - 1]);
    } else {
      assert a + b == a;
    }
  }

  /** In all, the CSR form stores `batch * numCol` values less the missing ones. */
  lemma {:induction false} CsrTotal(cells: seq<Cell>, rows: nat, numCol: nat)
    requires Mul(rows, numCol) <= |cells|
    ensures |CsrData(cells, rows, numCol)| == Mul(rows, numCol) - MissingCount(cells[..Mul(rows, numCol)])
  {
    if rows > 0 {
      RowFits(rows - 1, rows, numCol);
      CsrTotal(cells, rows - 1, numCol);
      var row := Row(cells, rows - 1, numCol);
      RowCounts(row);
      assert cells[..Mul(rows, numCol)] == cells[..Mul(rows - 1, numCol)] + row;
      MissingCountAppend(cells[..Mul(rows - 1, numCol)], row);
    }
  }

  // ---------------------------------------------------------------------------
  // The loop

  /** The inner loop of `SetInput`: walks one row starting at `base`, pushing
      each non-missing value and its column. */
  method AppendRow(cells: seq<Cell>, base: nat, numCol: nat, data: seq<real>, colInd: seq<nat>)
    returns (dataOut: seq<real>, colIndOut: seq<nat>)
    requires base + numCol <= |cells|
    ensures dataOut == data + RowValues(cells[base..base + numCol])
    ensures colIndOut == colInd + RowColumns(cells[base..base + numCol])
  {
    dataOut, colIndOut := data, colInd;
    for j := 0 to numCol
      invariant dataOut == data + RowValues(cells[base..base + j])
      invariant colIndOut == colInd + RowColumns(cells[base..base + j])
    {
      assert cells[base..base + j + 1][..j] == cells[base..base + j];
      if cells[base + j].Val? {
        dataOut := dataOut + [cells[base + j].v];
        colIndOut := colIndOut + [j];
      }
    }
  }

  /** The nested loop of `SetInput`: walks the `batch x numCol` row-major buffer,
      pushing each non-missing value and its column, and closes each row by
      pushing the size of `data` so far onto `row_ptr`. */
  method AssembleCsr(cells: seq<Cell>, batch: nat, numCol: nat)
    returns (data: seq<real>, colInd: seq<nat>, rowPtr: seq<nat>)
    requires batch * numCol <= |cells|
    ensures Mul(batch, numCol) <= |cells|
    ensures data == CsrData(cells, batch, numCol)
    ensures colInd == CsrColumns(cells, batch, numCol)
    ensures rowPtr == CsrRowPtr(cells, batch, numCol)
    ensures |data| == |colInd| == rowPtr[|rowPtr| - 1] && |rowPtr| == batch + 1
  {
    MulIsProduct(batch, numCol);
    data, colInd, rowPtr := [], [], [0];
    var i := 0;
    while i < batch
      invariant 0 <= i <= batch
      invariant Mul(i, numCol) <= |cells|
      invariant data == CsrData(cells, i, numCol)
      invariant colInd == CsrColumns(cells, i, numCol)
      invariant rowPtr == CsrRowPtr(cells, i, numCol)
    {
      RowInBounds(i, batch, numCol, |cells|);
      MulIsProduct(i, numCol);
      var base := i * numCol;
      data, colInd := AppendRow(cells, base, numCol, data, colInd);
      CsrStep(cells, batch, numCol, i);
      assert cells[base..base + numCol] == Row(cells, i, numCol);
      rowPtr := rowPtr + [|data|];
      i := i + 1;
    }
    CsrShape(cells, batch, numCol);
  }
}

=== FILE: hexagon.dfy ===
/**
 The accelerator (Hexagon) backend adapter: artifact discovery, tensor-spec
 enumeration through the engine's index-based spec entry points, name lookup,
 the shape-checked copy into the engine's input staging buffer, the
 index-checked output accessors, and teardown. The engine's entry points are
 parameters: its status codes, its spec answers as a function from index to
 optional spec, and its two staging buffers as arrays it hands over.
 */
module Hexagon {
  import opened DlrCommon

  const ModelSuffix: string := "_hexagon_model.so"
  const SkeletonLib: string := "libhexagon_nn_skel.so"

  /** Number of entries among the first `n` of the listing that end with `suffix`. */
  function MatchesAmong(filenames: seq<string>, suffix: string, n: nat): nat
    requires n <= |filenames|
  {
    if n == 0 then 0
    else MatchesAmong(filenames, suffix, n - 1) + (if EndsWith(filenames[n - 1], suffix) then 1 else 0)
  }

  /** Number of files in the listing that match the model pattern. */
  function CountModelFiles(filenames: seq<string>): nat
  {
    MatchesAmong(filenames, ModelSuffix, |filenames|)
  }

  /** Scanning further never finds fewer matches. */
  lemma {:induction false} MatchesAmongMonotone(filenames: seq<string>, suffix: string, i: nat, j: nat)
    requires i <= j <= |filenames|
    ensures MatchesAmong(filenames, suffix, i) <= MatchesAmong(filenames, suffix, j)
  {
    if i < j {
      MatchesAmongMonotone(filenames, suffix, i, j - 1);
    }
  }

  datatype HexagonArtifact = HexagonArtifact(modelFile: string, skeletonFile: Option<string>)

  /** The directory scan of `InitModelArtifact`, for a model-file suffix and a
      skeleton-library name that the suffix does not match: exactly one match
      is accepted, a second one is fatal at once, none is fatal after the scan;
      the skeleton library is recorded when listed. */
  method ScanListing(filenames: seq<string>, suffix: string, skeleton: string) returns (r: Result<HexagonArtifact>)
    requires !EndsWith(skeleton, suffix)
    ensures r.Success? <==> MatchesAmong(filenames, suffix, |filenames|) == 1
    ensures r.Failure? ==>
      r.error == if MatchesAmong(filenames, suffix, |filenames|) == 0 then NoModelFile else MultipleModelFiles
    ensures r.Success? ==> r.value.modelFile in filenames && EndsWith(r.value.modelFile, suffix)
    ensures r.Success? ==>
      forall i :: 0 <= i < |filenames| && EndsWith(filenames[i], suffix) ==> filenames[i] == r.value.modelFile
    ensures r.Success? ==> r.value.skeletonFile == if skeleton in filenames then Some(skeleton) else None
  {
    var modelFile: Option<string> := None;   // the source's empty `model_file`
    var skeletonFile: Option<string> := None;
    ghost var at := 0;
    for i := 0 to |filenames|
      invariant MatchesAmong(filenames, suffix, i) == if modelFile.None? then 0 else 1
      invariant modelFile.None? ==> forall k :: 0 <= k < i ==> !EndsWith(filenames[k], suffix)
      invariant modelFile.Some? ==> at < i && filenames[at] == modelFile.value && EndsWith(modelFile.value, suffix)
      invariant modelFile.Some? ==> forall k :: 0 <= k < i && EndsWith(filenames[k], suffix) ==> k == at
      invariant skeletonFile.None? ==> forall k :: 0 <= k < i ==> filenames[k] != skeleton
      invariant skeletonFile.Some? ==> skeletonFile.value == skeleton && skeleton in filenames
    {
      var filename := filenames[i];
      if EndsWith(filename, suffix) {
        if modelFile.None? {
          modelFile := Some(filename);
          at := i;
        } else {
          MatchesAmongMonotone(filenames, suffix, i + 1, |filenames|);
          return Failure(MultipleModelFiles);
        }
      } else if filename == skeleton {
        skeletonFile := Some(filename);
      }
    }
    if modelFile.None? {
      return Failure(NoModelFile);
    }
    r := Success(HexagonArtifact(modelFile.value, skeletonFile));
  }

  /** `InitModelArtifact`: the scan for `*_hexagon_model.so`, recording
      `libhexagon_nn_skel.so` when listed (the source then also points
      ADSP_LIBRARY_PATH at the model directory). */
  method InitModelArtifact(filenames: seq<string>) returns (r: Result<HexagonArtifact>)
    ensures r.Success? <==> CountModelFiles(filenames) == 1
    ensures r.Failure? ==> r.error == if CountModelFiles(filenames) == 0 then NoModelFile else MultipleModelFiles
    ensures r.Success? ==> r.value.modelFile in filenames && EndsWith(r.value.modelFile, ModelSuffix)
    ensures r.Success? ==>
      forall i :: 0 <= i < |filenames| && EndsWith(filenames[i], ModelSuffix) ==> filenames[i] == r.value.modelFile
    ensures r.Success? ==> r.value.skeletonFile == if SkeletonLib in filenames then Some(SkeletonLib) else None
  {
    assert !EndsWith(SkeletonLib, ModelSuffix) by {
      assert SkeletonLib[|SkeletonLib| - |ModelSuffix|..][0] == 'e';
    }
    r := ScanListing(filenames, ModelSuffix, SkeletonLib);
  }

  // ---------------------------------------------------------------------------
  // Tensor specs

  /** What a spec entry point returns for one index: the name, the rank, the
      engine's shape array (read for `dim` entries), element count and bytes. */
  datatype RawSpec = RawSpec(name: string, dim: int, shape: seq<int>, length: int, bytes: int)

  /** The adapter's own copy of one spec. */
  datatype TensorSpec = TensorSpec(name: string, dim: int, shape: seq<int>, bytes: int, size: int)

  /** The tensors one spec entry point describes, in index order: it answers
      index `i` with `table[i]` and returns a non-zero status for every index
      from `|table|` on. */
  type SpecTable = seq<RawSpec>

  /** One call of the spec entry point: `None` is a non-zero status. */
  function QuerySpec(table: SpecTable, id: nat): Option<RawSpec>
  {
    if id < |table| then Some(table[id]) else None
  }

  /** Every answer has a rank within its shape array and a non-negative byte count. */
  ghost predicate WellFormedAnswers(table: SpecTable)
  {
    forall i :: 0 <= i < |table| ==> 0 <= table[i].dim <= |table[i].shape| && 0 <= table[i].bytes
  }

  /** Every answered tensor fits the staging buffer of `capacity` bytes. */
  ghost predicate FitsStaging(table: SpecTable, capacity: nat)
  {
    forall i :: 0 <= i < |table| ==> table[i].bytes <= capacity
  }

  /** One spec copied out of the engine: `shape` becomes an owned copy of
      exactly `dim` entries, and `length` is kept as the element count. */
  function CopySpec(raw: RawSpec): (t: TensorSpec)
    requires 0 <= raw.dim <= |raw.shape|
    ensures t.name == raw.name && t.dim == raw.dim && t.bytes == raw.bytes && t.size == raw.length
    ensures |t.shape| == t.dim && forall i :: 0 <= i < t.dim ==> t.shape[i] == raw.shape[i]
  {
    TensorSpec(raw.name, raw.dim, raw.shape[..raw.dim], raw.bytes, raw.length)
  }

  /** The specs of indices `0 .. n-1`, in index order. */
  function SpecsBefore(table: SpecTable, n: nat): (specs: seq<TensorSpec>)
    requires WellFormedAnswers(table) && n <= |table|
    ensures |specs| == n
  {
    if n == 0 then [] else SpecsBefore(table, n - 1) + [CopySpec(table[n - 1])]
  }

  /** Entry `j` of the enumeration is the copy of the engine's answer for index `j`. */
  lemma {:induction false} SpecsBeforeAt(table: SpecTable, n: nat, j: nat)
    requires WellFormedAnswers(table) && n <= |table|
    requires j < n
    ensures SpecsBefore(table, n)[j] == CopySpec(table[j])
  {
    if j < n - 1 {
      SpecsBeforeAt(table, n - 1, j);
    }
  }

  /** Specs copied from answers that fit `capacity` keep fitting it. */
  lemma SpecsBeforeFit(table: SpecTable, capacity: nat, n: nat)
    requires WellFormedAnswers(table) && FitsStaging(table, capacity) && n <= |table|
    ensures forall i :: 0 <= i < n ==> SpecFits(SpecsBefore(table, n)[i], capacity)
  {
    var specs := SpecsBefore(table, n);
    forall i | 0 <= i < n
      ensures SpecFits(specs[i], capacity)
    {
      SpecsBeforeAt(table, n, i);
    }
  }

  /** What the adapter keeps about its tensors: one name per input spec, in
      order, and every spec fitting its staging buffer. */
  ghost predicate SpecsValid(inputSpecs: seq<TensorSpec>, inputNames: seq<string>, outputSpecs: seq<TensorSpec>,
                             inCapacity: nat, outCapacity: nat)
  {
    && |inputNames| == |inputSpecs|
    && (forall i :: 0 <= i < |inputSpecs| ==> inputNames[i] == inputSpecs[i].name)
    && (forall i :: 0 <= i < |inputSpecs| ==> SpecFits(inputSpecs[i], inCapacity))
    && (forall i :: 0 <= i < |outputSpecs| ==> SpecFits(outputSpecs[i], outCapacity))
  }

  /** The two enumerations, with the input names, satisfy `SpecsValid`. */
  lemma EnumerationValid(inputTable: SpecTable, outputTable: SpecTable, inCapacity: nat, outCapacity: nat)
    requires WellFormedAnswers(inputTable) && FitsStaging(inputTable, inCapacity)
    requires WellFormedAnswers(outputTable) && FitsStaging(outputTable, outCapacity)
    ensures
      var ins := SpecsBefore(inputTable, |inputTable|);
      SpecsValid(ins, Names(ins), SpecsBefore(outputTable, |outputTable|), inCapacity, outCapacity)
  {
    SpecsBeforeFit(inputTable, inCapacity, |inputTable|);
    SpecsBeforeFit(outputTable, outCapacity, |outputTable|);
  }

  /** The names of `specs`, in order. */
  function Names(specs: seq<TensorSpec>): (names: seq<string>)
    ensures |names| == |specs|
    ensures forall i :: 0 <= i < |specs| ==> names[i] == specs[i].name
  {
    if specs == [] then [] else Names(specs[..|specs| - 1]) + [specs[|specs| - 1].name]
  }

  /** The loop of `GenTensorSpec`: asks the entry point for indices 0, 1, 2, ...
      until it first refuses, collecting a copy of each spec and its name. */
  method EnumerateSpecs(table: SpecTable) returns (specs: seq<TensorSpec>, names: seq<string>)
    requires WellFormedAnswers(table)
    ensures specs == SpecsBefore(table, |table|)
    ensures names == Names(specs)
  {
    specs, names := [], [];
    var id := 0;
    while true
      invariant 0 <= id <= |table|
      invariant specs == SpecsBefore(table, id)
      invariant names == Names(specs)
      decreases |table| - id
    {
      var answer := QuerySpec(table, id);
      if answer.None? {
        break;
      }
      var spec := CopySpec(answer.value);
      assert Names(specs + [spec]) == names + [spec.name] by {
        NamesAppend(specs, spec);
      }
      specs := specs + [spec];
      names := names + [spec.name];
      id := id + 1;
    }
  }

  /** A kept spec: its shape has `dim` entries and its bytes fit `capacity`. */
  predicate SpecFits(spec: TensorSpec, capacity: nat)
  {
    |spec.shape| == spec.dim && 0 <= spec.bytes <= capacity
  }

  /** `GetInputId`'s scan from index `from`: the first spec with that name. */
  function FindByName(specs: seq<TensorSpec>, name: string, from: nat): (r: Result<nat>)
    requires from <= |specs|
    decreases |specs| - from
    ensures r.Success? ==>
      from <= r.value < |specs| && specs[r.value].name == name &&
      forall j :: from <= j < r.value ==> specs[j].name != name
    ensures r.Failure? <==> forall j :: from <= j < |specs| ==> specs[j].name != name
    ensures r.Failure? ==> r.error == InputNotFound(name)
  {
    if from == |specs| then Failure(InputNotFound(name))
    else if specs[from].name == name then Success(from)
    else FindByName(specs, name, from + 1)
  }

  /** `SetInput`'s checks: the caller's rank equals the spec's, then each axis. */
  predicate ShapeMatches(spec: TensorSpec, shape: seq<Int64>, dim: int)
    requires |spec.shape| == spec.dim
  {
    dim == spec.dim && dim <= |shape| && shape[..dim] == spec.shape
  }

  /** The checking loop of `SetInput`: rank first, then axis by axis. */
  method CheckShape(spec: TensorSpec, shape: seq<Int64>, dim: int) returns (r: Outcome)
    requires |spec.shape| == spec.dim
    requires dim == spec.dim ==> dim <= |shape|
    ensures r.Pass? <==> ShapeMatches(spec, shape, dim)
    ensures dim != spec.dim ==> r == Fail(DimMismatch)
    ensures dim == spec.dim && r.Fail? ==> r == Fail(ShapeMismatch)
  {
    if dim != spec.dim {
      return Fail(DimMismatch);
    }
    for i := 0 to dim
      invariant shape[..i] == spec.shape[..i]
    {
      if shape[i] != spec.shape[i] {
        assert shape[..dim][i] != spec.shape[i];
        return Fail(ShapeMismatch);
      }
      assert shape[..i + 1] == shape[..i] + [shape[i]];
      assert spec.shape[..i + 1] == spec.shape[..i] + [spec.shape[i]];
    }
    assert shape[..dim] == spec.shape[..dim] == spec.shape;
    r := Pass;
  }

  // ---------------------------------------------------------------------------
  // The model

  class HexagonModel {
    const artifact: HexagonArtifact
    const inStage: array<bv8>      // input_: the engine's input staging buffer
    const outStage: array<bv8>     // output_: the engine's output staging buffer
    var graphId: int               // graph_id_
    var attached: bool             // input_ and output_ still point at the staging buffers
    var inputSpecs: seq<TensorSpec>
    var outputSpecs: seq<TensorSpec>
    var inputNames: seq<string>
    var numInputs: int
    var numOutputs: int

    ghost predicate Valid()
      reads this
    {
      && inStage != outStage
      && numInputs == |inputSpecs| && numOutputs == |outputSpecs|
      && SpecsValid(inputSpecs, inputNames, outputSpecs, inStage.Length, outStage.Length)
    }

    /** The constructor after a successful `InitHexagonModel` (which hands over
        `graphId` and the staging buffers): it enumerates inputs, then outputs. */
    constructor (artifact: HexagonArtifact, graphId: int, inStage: array<bv8>, outStage: array<bv8>,
                 inputTable: SpecTable, outputTable: SpecTable)
      requires inStage != outStage
      requires WellFormedAnswers(inputTable) && FitsStaging(inputTable, inStage.Length)
      requires WellFormedAnswers(outputTable) && FitsStaging(outputTable, outStage.Length)
      ensures Valid()
      ensures this.artifact == artifact && this.graphId == graphId && attached
      ensures this.inStage == inStage && this.outStage == outStage
      ensures inputSpecs == SpecsBefore(inputTable, |inputTable|)
      ensures outputSpecs == SpecsBefore(outputTable, |outputTable|)
      ensures inputNames == Names(inputSpecs)
    {
      this.artifact := artifact;
      this.graphId := graphId;
      this.inStage := inStage;
      this.outStage := outStage;
      attached := true;
      inputSpecs, outputSpecs, inputNames := [], [], [];
      numInputs, numOutputs := 0, 0;
      new;
      InitInputOutputTensorSpecs(inputTable, outputTable);
    }

    /** `GenTensorSpec`: appends the enumerated specs (and, for inputs, their
        names) to the model's lists. */
    method GenTensorSpec(isInput: bool, table: SpecTable)
      requires WellFormedAnswers(table)
      modifies this
      ensures isInput ==> inputSpecs == old(inputSpecs) + SpecsBefore(table, |table|)
      ensures isInput ==> inputNames == old(inputNames) + Names(SpecsBefore(table, |table|))
      ensures isInput ==> outputSpecs == old(outputSpecs)
      ensures !isInput ==> outputSpecs == old(outputSpecs) + SpecsBefore(table, |table|)
      ensures !isInput ==> inputSpecs == old(inputSpecs) && inputNames == old(inputNames)
      ensures graphId == old(graphId) && attached == old(attached)
      ensures numInputs == old(numInputs) && numOutputs == old(numOutputs)
    {
      var specs, names := EnumerateSpecs(table);
      if isInput {
        inputSpecs := inputSpecs + specs;
        inputNames := inputNames + names;
      } else {
        outputSpecs := outputSpecs + specs;
      }
    }

    /** `InitInputOutputTensorSpecs`: enumerate inputs, then outputs, and record
        their counts. */
    method InitInputOutputTensorSpecs(inputTable: SpecTable, outputTable: SpecTable)
      requires inStage != outStage
      requires inputSpecs == [] && outputSpecs == [] && inputNames == []
      requires WellFormedAnswers(inputTable) && FitsStaging(inputTable, inStage.Length)
      requires WellFormedAnswers(outputTable) && FitsStaging(outputTable, outStage.Length)
      modifies this
      ensures Valid()
      ensures inputSpecs == SpecsBefore(inputTable, |inputTable|)
      ensures outputSpecs == SpecsBefore(outputTable, |outputTable|)
      ensures inputNames == Names(inputSpecs)
      ensures graphId == old(graphId) && attached == old(attached)
    {
      GenTensorSpec(true, inputTable);
      numInputs := |inputSpecs|;
      GenTensorSpec(false, outputTable);
      numOutputs := |outputSpecs|;
      EnumerationValid(inputTable, outputTable, inStage.Length, outStage.Length);
    }

    /** `GetInputId`: the first input whose name equals `name`. */
    function GetInputId(name: string): (r: Result<nat>)
      reads this
      requires Valid()
      ensures r.Success? ==>
        r.value < numInputs && inputSpecs[r.value].name == name &&
        forall j :: 0 <= j < r.value ==> inputSpecs[j].name != name
      ensures r.Failure? <==> forall j :: 0 <= j < numInputs ==> inputSpecs[j].name != name
      ensures r.Failure? ==> r.error == InputNotFound(name)
    {
      FindByName(inputSpecs, name, 0)
    }

    /** `SetInput` succeeds exactly when the name is known and the caller's rank
        and shape equal that input's spec. */
    predicate Accepts(name: string, shape: seq<Int64>, dim: int)
      reads this
      requires Valid()
    {
      GetInputId(name).Success? && ShapeMatches(inputSpecs[GetInputId(name).value], shape, dim)
    }

    /** `SetInput`: name lookup, rank and shape checks, all before any write;
        then the spec's byte count is copied from the caller's buffer to the
        start of the input staging buffer, and nothing else changes. */
    method SetInput(name: string, shape: seq<Int64>, input: seq<bv8>, dim: int) returns (r: Outcome)
      requires Valid()
      requires GetInputId(name).Success? && dim == inputSpecs[GetInputId(name).value].dim ==> dim <= |shape|
      requires Accepts(name, shape, dim) ==> inputSpecs[GetInputId(name).value].bytes <= |input|
      modifies inStage
      ensures r.Pass? <==> Accepts(name, shape, dim)
      ensures GetInputId(name).Failure? ==> r == Fail(InputNotFound(name))
      ensures GetInputId(name).Success? && dim != inputSpecs[GetInputId(name).value].dim ==> r == Fail(DimMismatch)
      ensures GetInputId(name).Success? && dim == inputSpecs[GetInputId(name).value].dim && r.Fail? ==>
                r == Fail(ShapeMismatch)
      ensures r.Fail? ==> inStage[..] == old(inStage[..])
      ensures r.Pass? ==>
        var n := inputSpecs[GetInputId(name).value].bytes;
        inStage[..n] == input[..n] && inStage[n..] == old(inStage[n..])
    {
      var index := GetInputId(name);
      if index.Failure? {
        return Fail(index.error);
      }
      var spec := inputSpecs[index.value];
      r := CheckShape(spec, shape, dim);
      if r.Fail? {
        return;
      }
      var n := spec.bytes;
      forall k | 0 <= k < n {
        inStage[k] := input[k];
      }
    }

    /** `GetInput`: copies the spec's byte count back out of the input staging buffer. */
    method GetInput(name: string) returns (r: Result<seq<bv8>>)
      requires Valid()
      ensures r.Success? <==> GetInputId(name).Success?
      ensures r.Failure? ==> r.error == InputNotFound(name)
      ensures r.Success? ==> r.value == inStage[..inputSpecs[GetInputId(name).value].bytes]
    {
      var index := GetInputId(name);
      if index.Failure? {
        return Failure(index.error);
      }
      r := Success(inStage[..inputSpecs[index.value].bytes]);
    }

    function GetInputName(index: nat): (r: Result<string>)
      reads this
      requires Valid()
      ensures r.Success? <==> index < numInputs
      ensures r.Success? ==> r.value == inputSpecs[index].name
      ensures r.Failure? ==> r.error == IndexOutOfRange
    {
      if index < numInputs then Success(inputNames[index]) else Failure(IndexOutOfRange)
    }

    function GetOutputShape(index: nat): (r: Result<seq<int>>)
      reads this
      requires Valid()
      ensures r.Success? <==> index < numOutputs
      ensures r.Success? ==> |r.value| == outputSpecs[index].dim && r.value == outputSpecs[index].shape
      ensures r.Failure? ==> r.error == IndexOutOfRange
    {
      if index < numOutputs then Success(outputSpecs[index].shape) else Failure(IndexOutOfRange)
    }

    /** `GetOutputSizeDim`: the spec's element count and rank. */
    function GetOutputSizeDim(index: nat): (r: Result<(int, int)>)
      reads this
      requires Valid()
      ensures r.Success? <==> index < numOutputs
      ensures r.Success? ==> r.value.0 == outputSpecs[index].size && r.value.1 == outputSpecs[index].dim
      ensures r.Success? ==> r.value.1 == |GetOutputShape(index).value|
      ensures r.Failure? ==> r.error == IndexOutOfRange
    {
      if index < numOutputs then Success((outputSpecs[index].size, outputSpecs[index].dim)) else Failure(IndexOutOfRange)
    }

    /** `GetOutput`: the spec's byte count from the start of the output staging buffer. */
    method GetOutput(index: nat) returns (r: Result<seq<bv8>>)
      requires Valid()
      ensures r.Success? <==> index < numOutputs
      ensures r.Success? ==> |r.value| == outputSpecs[index].bytes && r.value == outStage[..outputSpecs[index].bytes]
      ensures r.Failure? ==> r.error == IndexOutOfRange
    {
      if index >= numOutputs {
        return Failure(IndexOutOfRange);
      }
      r := Success(outStage[..outputSpecs[index].bytes]);
    }

    /** `Run`: the exec entry point writes into the output staging buffer and
        then answers a status; `produced` is what the buffer holds when it
        returns, partial writes of a failed run included. The status is checked
        only afterwards, so a non-zero one is reported with the buffer already
        overwritten. */
    method Run(execStatus: int, produced: seq<bv8>) returns (r: Outcome)
      requires Valid()
      requires |produced| == outStage.Length
      modifies outStage
      ensures r.Pass? <==> execStatus == 0
      ensures r.Fail? ==> r.error == EngineFailure(execStatus)
      ensures outStage[..] == produced
    {
      forall k | 0 <= k < outStage.Length {
        outStage[k] := produced[k];
      }
      if execStatus != 0 {
        return Fail(EngineFailure(execStatus));
      }
      r := Pass;
    }

    /** The destructor: the close entry point is called only for a live graph,
        which detaches the staging buffers; afterwards there is no graph. */
    method Release() returns (closeCalled: bool)
      requires Valid()
      modifies this`graphId, this`attached
      ensures Valid()
      ensures closeCalled <==> old(graphId) != 0
      ensures graphId == 0
      ensures attached == (old(attached) && old(graphId) == 0)
    {
      closeCalled := graphId != 0;
      if closeCalled {
        attached := false;
        graphId := 0;
      }
    }

    function GetWeightNames(): (r: Result<seq<string>>)
      ensures r.Failure? && r.error == Unsupported("GetWeightNames")
    {
      Failure(Unsupported("GetWeightNames"))
    }

    /** This backend has no type metadata for its tensors. */
    function GetInputType(index: int): (r: Result<string>)
      ensures r.Failure? && r.error == Unsupported("GetInputType")
    {
      Failure(Unsupported("GetInputType"))
    }

    function GetWeightName(index: int): (r: Result<string>)
      ensures r.Failure? && r.error == Unsupported("GetWeightName")
    {
      Failure(Unsupported("GetWeightName"))
    }

    function GetOutputType(index: int): (r: Result<string>)
      ensures r.Failure? && r.error == Unsupported("GetOutputType")
    {
      Failure(Unsupported("GetOutputType"))
    }

    function SetNumThreads(threads: int): (r: Outcome)
      ensures r.Fail? && r.error == Unsupported("SetNumThreads")
    {
      Fail(Unsupported("SetNumThreads"))
    }

    function UseCPUAffinity(use: bool): (r: Outcome)
      ensures r.Fail? && r.error == Unsupported("UseCPUAffinity")
    {
      Fail(Unsupported("UseCPUAffinity"))
    }
  }

  lemma NamesAppend(specs: seq<TensorSpec>, spec: TensorSpec)
    ensures Names(specs + [spec]) == Names(specs) + [spec.name]
  {
  }

  /** What `SetInput` stages under a name, `GetInput` under that name returns. */
  method StageRoundTrip(model: HexagonModel, name: string, shape: seq<Int64>, input: seq<bv8>, dim: int)
    returns (staged: Outcome, read: Result<seq<bv8>>)
    requires model.Valid()
    requires model.Accepts(name, shape, dim)
    requires model.inputSpecs[model.GetInputId(name).value].bytes <= |input|
    modifies model.inStage
    ensures staged.Pass? && read.Success?
    ensures read.value == input[..model.inputSpecs[model.GetInputId(name).value].bytes]
  {
    staged := model.SetInput(name, shape, input, dim);
    read := model.GetInput(name);
  }

  /** Construction: `InitModelArtifact`, then `InitHexagonModel` (the engine's
      init answers `initStatus`, the graph id and the staging buffers), then the
      tensor-spec enumeration. */
  method Load(filenames: seq<string>, initStatus: int, graphId: int, inStage: array<bv8>, outStage: array<bv8>,
              inputTable: SpecTable, outputTable: SpecTable)
    returns (r: Result<HexagonModel>)
    requires inStage != outStage
    requires WellFormedAnswers(inputTable) && FitsStaging(inputTable, inStage.Length)
    requires WellFormedAnswers(outputTable) && FitsStaging(outputTable, outStage.Length)
    ensures r.Success? <==> CountModelFiles(filenames) == 1 && initStatus == 0
    ensures CountModelFiles(filenames) == 0 ==> r == Failure(NoModelFile)
    ensures CountModelFiles(filenames) > 1 ==> r == Failure(MultipleModelFiles)
    ensures CountModelFiles(filenames) == 1 && initStatus != 0 ==> r == Failure(EngineFailure(initStatus))
    ensures r.Success? ==>
      && fresh(r.value) && r.value.Valid()
      && r.value.numInputs == |inputTable| && r.value.numOutputs == |outputTable|
      && r.value.inputNames == Names(r.value.inputSpecs)
      && r.value.graphId == graphId
  {
    var artifact := InitModelArtifact(filenames);
    if artifact.Failure? {
      return Failure(artifact.error);
    }
    if initStatus != 0 {
      return Failure(EngineFailure(initStatus));
    }
    var model := new HexagonModel(artifact.value, graphId, inStage, outStage, inputTable, outputTable);
    r := Success(model);
  }
}

=== FILE: treelite.dfy ===
/**
 The decision-tree (Treelite) backend adapter: artifact discovery, the load
 protocol with its probe prediction, the dense-to-CSR `SetInput`, and the
 bound-input state that `GetOutputShape`, `GetOutputSizeDim`, `Run` and
 `GetOutput` consult. The prediction engine itself is not modelled: its answers
 are parameters.
 */
module Treelite {
  import opened DlrCommon
  import opened TreeliteCsr

  /** The platform's dynamic-library extension and the runtime's own library
      (Linux values; the header that defines them is not part of this model). */
  const LibExt: string := ".so"
  const LibDlr: string := "libdlr.so"
  const VersionJson: string := "version.json"

  /** A library other than the runtime's own: a candidate for the compiled model. */
  predicate IsLibraryOf(filename: string, ext: string, runtimeLib: string)
  {
    filename != runtimeLib && EndsWith(filename, ext)
  }

  /** A file that `InitModelArtifact` takes for the compiled model. */
  predicate IsModelLib(filename: string)
  {
    IsLibraryOf(filename, LibExt, LibDlr)
  }

  datatype TreeliteArtifact = TreeliteArtifact(modelLib: string, verJson: Option<string>)

  /** The directory scan of `InitModelArtifact`, for a library extension, the
      runtime's own library and a version-file name that is no candidate: the
      LAST candidate wins (no duplicate check), none is fatal, and the version
      file is recorded when listed. */
  method ScanListing(filenames: seq<string>, ext: string, runtimeLib: string, versionFile: string)
    returns (r: Result<TreeliteArtifact>)
    requires !IsLibraryOf(versionFile, ext, runtimeLib)
    ensures r.Failure? <==> forall i :: 0 <= i < |filenames| ==> !IsLibraryOf(filenames[i], ext, runtimeLib)
    ensures r.Failure? ==> r.error == NoModelFile
    ensures r.Success? ==>
      exists i :: 0 <= i < |filenames| && filenames[i] == r.value.modelLib && IsLibraryOf(filenames[i], ext, runtimeLib) &&
        forall k :: i < k < |filenames| ==> !IsLibraryOf(filenames[k], ext, runtimeLib)
    ensures r.Success? ==> r.value.verJson == if versionFile in filenames then Some(versionFile) else None
  {
    var modelLib: Option<string> := None;   // the source's empty `model_lib`
    var verJson: Option<string> := None;
    ghost var last := 0;
    for i := 0 to |filenames|
      invariant modelLib.None? ==> forall k :: 0 <= k < i ==> !IsLibraryOf(filenames[k], ext, runtimeLib)
      invariant modelLib.Some? ==>
        && last < i && filenames[last] == modelLib.value && IsLibraryOf(modelLib.value, ext, runtimeLib)
        && forall k :: last < k < i ==> !IsLibraryOf(filenames[k], ext, runtimeLib)
      invariant verJson.None? ==> forall k :: 0 <= k < i ==> filenames[k] != versionFile
      invariant verJson.Some? ==> verJson.value == versionFile && versionFile in filenames
    {
      var filename := filenames[i];
      if filename != runtimeLib && EndsWith(filename, ext) {
        modelLib := Some(filename);
        last := i;
      } else if filename == versionFile {
        verJson := Some(filename);
      }
    }
    if modelLib.None? {
      return Failure(NoModelFile);
    }
    r := Success(TreeliteArtifact(modelLib.value, verJson));
  }

  /** `InitModelArtifact`: the scan for `*.so` other than `libdlr.so`,
      recording `version.json` when listed. */
  method InitModelArtifact(filenames: seq<string>) returns (r: Result<TreeliteArtifact>)
    ensures r.Failure? <==> forall i :: 0 <= i < |filenames| ==> !IsModelLib(filenames[i])
    ensures r.Failure? ==> r.error == NoModelFile
    ensures r.Success? ==>
      exists i :: 0 <= i < |filenames| && filenames[i] == r.value.modelLib && IsModelLib(filenames[i]) &&
        forall k :: i < k < |filenames| ==> !IsModelLib(filenames[k])
    ensures r.Success? ==> r.value.verJson == if VersionJson in filenames then Some(VersionJson) else None
  {
    assert !IsModelLib(VersionJson) by {
      assert VersionJson[|VersionJson| - |LibExt|..] != LibExt by {
        assert VersionJson[|VersionJson| - |LibExt|..][0] == 's';
      }
    }
    r := ScanListing(filenames, LibExt, LibDlr, VersionJson);
  }

  /** What the prediction engine answers during `SetupTreeliteModule`: a status
      per call (0 is success), the feature count, the output-group (class) count
      and the width the single-row probe prediction actually returned. */
  datatype TreeliteEngine = TreeliteEngine(
    loadStatus: int,
    featureStatus: int, numFeature: SizeT,
    groupStatus: int, numOutputGroup: SizeT,
    probeStatus: int, probeWidth: SizeT)

  /** The dimensions the adapter keeps from loading. */
  datatype EngineDims = EngineDims(numFeature: SizeT, bufferSize: SizeT, outputSize: SizeT)

  /** `SetupTreeliteModule`: load, query, probe. The output width is the probe's,
      and it must not exceed the class count, which sizes the output buffer. */
  function SetupTreeliteModule(engine: TreeliteEngine): (r: Result<EngineDims>)
    ensures r.Success? <==>
      engine.loadStatus == 0 && engine.featureStatus == 0 && engine.groupStatus == 0 &&
      engine.probeStatus == 0 && engine.probeWidth <= engine.numOutputGroup
    ensures r.Success? ==>
      r.value.numFeature == engine.numFeature && r.value.bufferSize == engine.numOutputGroup &&
      r.value.outputSize == engine.probeWidth && r.value.outputSize <= r.value.bufferSize
    ensures engine.loadStatus != 0 ==> r == Failure(EngineFailure(engine.loadStatus))
    ensures engine.loadStatus == 0 && engine.featureStatus != 0 ==> r == Failure(EngineFailure(engine.featureStatus))
    ensures engine.loadStatus == 0 && engine.featureStatus == 0 && engine.groupStatus != 0 ==>
              r == Failure(EngineFailure(engine.groupStatus))
    ensures engine.loadStatus == 0 && engine.featureStatus == 0 && engine.groupStatus == 0 && engine.probeStatus != 0 ==>
              r == Failure(EngineFailure(engine.probeStatus))
    ensures r.Failure? && r.error == OutputWidthExceedsClasses ==> engine.probeWidth > engine.numOutputGroup
  {
    if engine.loadStatus != 0 then Failure(EngineFailure(engine.loadStatus))
    else if engine.featureStatus != 0 then Failure(EngineFailure(engine.featureStatus))
    else if engine.groupStatus != 0 then Failure(EngineFailure(engine.groupStatus))
    else if engine.probeStatus != 0 then Failure(EngineFailure(engine.probeStatus))
    else if engine.probeWidth > engine.numOutputGroup then Failure(OutputWidthExceedsClasses)
    else Success(EngineDims(engine.numFeature, engine.numOutputGroup, engine.probeWidth))
  }

  /** The CSR input registered with the engine (`TreeliteInput`). */
  datatype TreeliteInput = TreeliteInput(data: seq<real>, colInd: seq<nat>, rowPtr: seq<nat>, numRow: SizeT, numCol: SizeT)

  /** `SetInput`'s column check: `static_cast<size_t>(shape[1]) <= num_feature`.
      A negative count becomes a huge `size_t`, refused while the feature
      count is below 2^63. */
  function ColumnsAccepted(columns: Int64, numFeature: SizeT): (ok: bool)
    ensures 0 <= columns ==> (ok <==> columns <= numFeature)
    ensures columns < 0 && numFeature < SizeTModulus / 2 ==> !ok
    ensures ok ==> ToUInt32(columns) <= numFeature
  {
    ToSizeT(columns) <= numFeature
  }

  /** The caller's buffer holds the `batch x columns` floats the loop reads. */
  predicate DenseFits(cells: seq<Cell>, batch: Int64, columns: Int64)
  {
    ToSizeT(batch) * ToUInt32(columns) <= |cells|
  }

  /** The input `SetInput` binds: the CSR form of the buffer read with the
      loop's `batch_size` and `num_col`, recorded with the engine's feature count. */
  function DenseToCsr(cells: seq<Cell>, batch: Int64, columns: Int64, numFeature: SizeT): TreeliteInput
    requires DenseFits(cells, batch, columns)
  {
    var rows, numCol := ToSizeT(batch), ToUInt32(columns);
    MulIsProduct(rows, numCol);
    TreeliteInput(CsrData(cells, rows, numCol), CsrColumns(cells, rows, numCol),
                  CsrRowPtr(cells, rows, numCol), rows, numFeature)
  }

  /** The bound input is a well-formed CSR matrix of `batch` rows and
      `numFeature` columns: `row_ptr` has `batch + 1` entries from 0 to
      `|data| == |col_ind|`, and every column index is below the feature count,
      so narrower input is padded with missing columns. */
  lemma DenseToCsrShape(cells: seq<Cell>, batch: Int64, columns: Int64, numFeature: SizeT)
    requires DenseFits(cells, batch, columns) && ColumnsAccepted(columns, numFeature)
    ensures var t := DenseToCsr(cells, batch, columns, numFeature);
      && t.numRow == ToSizeT(batch) && t.numCol == numFeature
      && |t.rowPtr| == t.numRow + 1 && t.rowPtr[0] == 0
      && |t.data| == |t.colInd| == t.rowPtr[t.numRow]
      && forall k :: 0 <= k < |t.colInd| ==> t.colInd[k] < numFeature
  {
    var rows, numCol := ToSizeT(batch), ToUInt32(columns);
    MulIsProduct(rows, numCol);
    CsrShape(cells, rows, numCol);
    CsrColumnsBelow(cells, rows, numCol);
  }

  lemma MulLeftMonotone(n: nat, a: nat, b: nat)
    requires a <= b
    ensures n * a <= n * b
  {
    assert n * b == n * a + n * (b - a);
  }

  class TreeliteModel {
    const artifact: TreeliteArtifact
    const numInputs: int
    const numOutputs: int
    const inputNames: seq<string>
    const inputTypes: seq<string>
    const numFeature: SizeT         // treelite_num_feature_
    const outputBufferSize: SizeT   // treelite_output_buffer_size_: the class count
    const outputSize: SizeT         // treelite_output_size_: the probed width
    var input: Option<TreeliteInput>   // treelite_input_, None before the first SetInput
    var output: seq<real>              // treelite_output_
    var outputCurrent: bool            // Run has filled `output` since the last SetInput

    ghost predicate Valid()
      reads this
    {
      && numInputs == 1 && numOutputs == 1
      && inputNames == ["data"] && inputTypes == ["float32"]
      && outputSize <= outputBufferSize
      && (input.Some? ==> input.value.numCol == numFeature)
      && (outputCurrent ==> input.Some? && |output| == input.value.numRow * outputBufferSize)
    }

    /** The model after `InitModelArtifact` and `SetupTreeliteModule`: one
        synthetic input "data" of type "float32", one output, nothing bound. */
    constructor (artifact: TreeliteArtifact, dims: EngineDims)
      requires dims.outputSize <= dims.bufferSize
      ensures Valid()
      ensures this.artifact == artifact
      ensures numFeature == dims.numFeature && outputBufferSize == dims.bufferSize && outputSize == dims.outputSize
      ensures input == None && output == [] && !outputCurrent
    {
      this.artifact := artifact;
      numInputs, numOutputs := 1, 1;
      inputNames, inputTypes := ["data"], ["float32"];
      numFeature, outputBufferSize, outputSize := dims.numFeature, dims.bufferSize, dims.outputSize;
      input, output, outputCurrent := None, [], false;
    }

    function GetInputName(index: int): (r: Result<string>)
      reads this
      requires Valid()
      ensures r.Success? <==> index < numInputs
      ensures r.Success? ==> r.value == inputNames[0] == "data"
      ensures r.Failure? ==> r.error == IndexOutOfRange
    {
      if index < numInputs then Success("data") else Failure(IndexOutOfRange)
    }

    function GetInputType(index: int): (r: Result<string>)
      reads this
      requires Valid()
      ensures r.Success? <==> index < numInputs
      ensures r.Success? ==> r.value == inputTypes[0] == "float32"
      ensures r.Failure? ==> r.error == IndexOutOfRange
    {
      if index < numInputs then Success("float32") else Failure(IndexOutOfRange)
    }

    function GetOutputType(index: int): (r: Result<string>)
      reads this
      requires Valid()
      ensures r.Success? <==> index < numOutputs
      ensures r.Success? ==> r.value == "float32"
      ensures r.Failure? ==> r.error == IndexOutOfRange
    {
      if index < numOutputs then Success("float32") else Failure(IndexOutOfRange)
    }

    /** `SetInput`: checks the rank and the column count, rebuilds the CSR input
        from scratch and registers it (`assembleStatus` is the engine's answer).
        The new bound input depends on the arguments alone: nothing of the
        previous one survives. It replaces the old one before registration, so
        a refused registration leaves the new matrix bound. The input name is
        not consulted. */
    method SetInput(name: string, shape: seq<Int64>, cells: seq<Cell>, dim: int, assembleStatus: int)
      returns (r: Outcome)
      requires Valid()
      requires dim == 2 ==> |shape| == 2
      requires dim == 2 && ColumnsAccepted(shape[1], numFeature) ==> DenseFits(cells, shape[0], shape[1])
      modifies this
      ensures Valid()
      ensures r.Pass? <==> dim == 2 && ColumnsAccepted(shape[1], numFeature) && assembleStatus == 0
      ensures dim != 2 ==> r == Fail(DimMismatch)
      ensures dim == 2 && !ColumnsAccepted(shape[1], numFeature) ==> r == Fail(ShapeMismatch)
      ensures dim == 2 && ColumnsAccepted(shape[1], numFeature) && assembleStatus != 0 ==>
                r == Fail(EngineFailure(assembleStatus))
      ensures dim != 2 || !ColumnsAccepted(shape[1], numFeature) ==>
                input == old(input) && outputCurrent == old(outputCurrent)
      ensures dim == 2 && ColumnsAccepted(shape[1], numFeature) ==>
                input == Some(DenseToCsr(cells, shape[0], shape[1], numFeature)) && !outputCurrent
      ensures output == old(output)
    {
      if dim != 2 {
        return Fail(DimMismatch);
      }
      if !ColumnsAccepted(shape[1], numFeature) {
        return Fail(ShapeMismatch);
      }
      var batchSize := ToSizeT(shape[0]);
      var numCol := ToUInt32(shape[1]);
      var data, colInd, rowPtr := AssembleCsr(cells, batchSize, numCol);
      // The three CHECK_EQ post-conditions of the source hold by AssembleCsr's contract.
      assert |data| == |colInd| == rowPtr[|rowPtr| - 1] && |rowPtr| == batchSize as int + 1;
      input := Some(TreeliteInput(data, colInd, rowPtr, batchSize, numFeature));
      outputCurrent := false;
      if assembleStatus != 0 {
        return Fail(EngineFailure(assembleStatus));
      }
      r := Pass;
    }

    /** `GetOutputShape`: rank 2; the batch axis is -1 until an input is bound. */
    function GetOutputShape(index: int): (shape: seq<int>)
      reads this
      ensures |shape| == 2 && shape[1] == outputSize
      ensures shape[0] == -1 <==> input.None?
      ensures input.Some? ==> shape[0] == input.value.numRow
    {
      [if input.Some? then input.value.numRow else -1, outputSize]
    }

    /** `GetOutputSizeDim`: rank 2 always; the size is the product of the output
        shape once bound, and the width alone before. */
    function GetOutputSizeDim(index: int): (r: (int, int))
      reads this
      ensures r.1 == 2
      ensures input.Some? ==> r.0 == GetOutputShape(index)[0] * GetOutputShape(index)[1]
      ensures input.None? ==> r.0 == GetOutputShape(index)[1] == outputSize
    {
      if input.Some? then (input.value.numRow * outputSize, 2) else (outputSize, 2)
    }

    /** `Run`: needs a bound input; the output buffer takes `num_row` rows of the
        class-count width (`prediction` is what the engine writes into it). */
    method Run(predictStatus: int, prediction: seq<real>) returns (r: Outcome)
      requires Valid()
      requires input.Some? ==> |prediction| == input.value.numRow * outputBufferSize
      modifies this
      ensures Valid()
      ensures input == old(input)
      ensures r.Pass? <==> input.Some? && predictStatus == 0
      ensures input.Some? && predictStatus != 0 ==> r == Fail(EngineFailure(predictStatus))
      ensures input.None? ==> r == Fail(InputNotBound) && output == old(output) && outputCurrent == old(outputCurrent)
      ensures input.Some? ==> output == prediction && |output| == input.value.numRow * outputBufferSize
      ensures outputCurrent <==> r.Pass?
    {
      if input.None? {
        return Fail(InputNotBound);
      }
      output := prediction;
      if predictStatus != 0 {
        outputCurrent := false;
        return Fail(EngineFailure(predictStatus));
      }
      outputCurrent := true;
      r := Pass;
    }

    /** What the source's `GetOutput` relies on without checking: its copy of
        `num_row * output_size` floats lies within `treelite_output_`. */
    predicate CopyFitsOutput()
      reads this
    {
      input.Some? ==> input.value.numRow * outputSize <= |output|
    }

    /** `GetOutput` as written: only a bound input is checked, then
        `num_row * output_size` floats are copied; it is safe only when
        `CopyFitsOutput()` holds, which nothing in the adapter ensures. */
    method GetOutputAsWritten(index: int) returns (r: Result<seq<real>>)
      requires Valid()
      requires CopyFitsOutput()
      ensures r.Failure? <==> input.None?
      ensures r.Success? ==> |r.value| == input.value.numRow * outputSize && r.value <= output
    {
      if input.None? {
        return Failure(InputNotBound);
      }
      r := Success(output[..input.value.numRow * outputSize]);
    }

    /** `GetOutput`, corrected to also refuse when no `Run` followed the last
        `SetInput`. It copies exactly `num_row * output_size` floats, the
        probed width, never the wider allocation stride. */
    method GetOutput(index: int) returns (r: Result<seq<real>>)
      requires Valid()
      ensures r.Failure? <==> input.None? || !outputCurrent
      ensures input.None? ==> r == Failure(InputNotBound)
      ensures input.Some? && !outputCurrent ==> r == Failure(OutputNotComputed)
      ensures r.Success? ==>
        && |r.value| == input.value.numRow * outputSize == GetOutputSizeDim(index).0
        && |r.value| <= |output| && r.value == output[..|r.value|]
    {
      if input.None? {
        return Failure(InputNotBound);
      }
      if !outputCurrent {
        return Failure(OutputNotComputed);
      }
      MulLeftMonotone(input.value.numRow, outputSize, outputBufferSize);
      r := Success(output[..input.value.numRow * outputSize]);
    }

    function GetWeightNames(): (r: Result<seq<string>>)
      ensures r.Failure? && r.error == Unsupported("GetWeightNames")
    {
      Failure(Unsupported("GetWeightNames"))
    }

    function GetWeightName(index: int): (r: Result<string>)
      ensures r.Failure? && r.error == Unsupported("GetWeightName")
    {
      Failure(Unsupported("GetWeightName"))
    }

    /** The bound CSR input cannot be turned back into a dense buffer. */
    function GetInput(name: string): (r: Result<seq<Cell>>)
      ensures r.Failure? && r.error == Unsupported("GetInput")
    {
      Failure(Unsupported("GetInput"))
    }

    function SetNumThreads(threads: int): (r: Outcome)
      ensures r.Fail? && r.error == Unsupported("SetNumThreads")
    {
      Fail(Unsupported("SetNumThreads"))
    }

    function UseCPUAffinity(use: bool): (r: Outcome)
      ensures r.Fail? && r.error == Unsupported("UseCPUAffinity")
    {
      Fail(Unsupported("UseCPUAffinity"))
    }
  }

  /** Construction: `InitModelArtifact`, then `SetupTreeliteModule`. */
  method Load(filenames: seq<string>, engine: TreeliteEngine) returns (r: Result<TreeliteModel>)
    ensures r.Success? <==>
      (exists i :: 0 <= i < |filenames| && IsModelLib(filenames[i])) && SetupTreeliteModule(engine).Success?
    ensures r.Failure? ==>
      r.error == if forall i :: 0 <= i < |filenames| ==> !IsModelLib(filenames[i]) then NoModelFile
                 else SetupTreeliteModule(engine).error
    ensures r.Success? ==>
      && fresh(r.value) && r.value.Valid()
      && r.value.numFeature == engine.numFeature && r.value.outputBufferSize == engine.numOutputGroup
      && r.value.outputSize == engine.probeWidth && r.value.input.None? && !r.value.outputCurrent
  {
    var artifact := InitModelArtifact(filenames);
    if artifact.Failure? {
      return Failure(artifact.error);
    }
    var dims := SetupTreeliteModule(engine);
    if dims.Failure? {
      return Failure(dims.error);
    }
    var model := new TreeliteModel(artifact.value, dims.value);
    r := Success(model);
  }

  /** Rebinding a larger batch after a `Run` leaves the output buffer of the
      earlier, smaller batch in place: the source's copy would read past it,
      while the corrected `GetOutput` refuses. */
  method RebindWithoutRun() returns (fits: bool, r: Result<seq<real>>)
    ensures !fits && r == Failure(OutputNotComputed)
  {
    var m := new TreeliteModel(TreeliteArtifact("model.so", None), EngineDims(1, 1, 1));
    var s := m.SetInput("data", [1, 1], [Val(0.5)], 2, 0);
    s := m.Run(0, [0.25]);
    s := m.SetInput("data", [2, 1], [Val(1.0), Val(2.0)], 2, 0);
    assert m.input.value.numRow == 2;
    fits := m.CopyFitsOutput();
    r := m.GetOutput(0);
  }

  /** A registration the engine refuses still leaves the new matrix bound: the
      source replaces the bound input before it asks the engine. After a run
      on two rows, rebinding one row with a refused registration reports the
      engine's status, the output shape follows the new batch, and the output
      of the earlier run is no longer served. */
  method RefusedRegistration() returns (s: Outcome, shape: seq<int>, r: Result<seq<real>>)
    ensures s == Fail(EngineFailure(7)) && shape == [1, 1] && r == Failure(OutputNotComputed)
  {
    var m := new TreeliteModel(TreeliteArtifact("model.so", None), EngineDims(1, 1, 1));
    s := m.SetInput("data", [2, 1], [Val(1.0), Val(2.0)], 2, 0);
    s := m.Run(0, [0.25, 0.75]);
    s := m.SetInput("data", [1, 1], [Val(0.5)], 2, 7);
    assert m.input.value.numRow == 1;
    shape := m.GetOutputShape(0);
    r := m.GetOutput(0);
  }

  /** The scenario of the adapter's tests: one fully present row of 69 features
      on a binary classifier whose probe returns one column. */
  method BinaryClassifierScenario(row: seq<real>) returns (shape: seq<int>, sizeDim: (int, int), name: Result<string>, rowPtr: seq<nat>)
    requires |row| == 69
    ensures shape == [1, 1] && sizeDim == (1, 2) && name == Success("data") && rowPtr == [0, 69]
  {
    var m := new TreeliteModel(TreeliteArtifact("model.so", None), EngineDims(69, 1, 1));
    name := m.GetInputName(0);
    var cells := seq(69, k requires 0 <= k < 69 => Val(row[k]));
    var s := m.SetInput("data", [1, 69], cells, 2, 0);
    shape := m.GetOutputShape(0);
    sizeDim := m.GetOutputSizeDim(0);
    var t := m.input.value;
    DenseToCsrShape(cells, 1, 69, 69);
    CsrTotal(cells, 1, 69);
    assert MissingCount(cells[..69]) == 0 by {
      assert cells[..69] == cells;
      NoMissing(cells);
    }
    rowPtr := t.rowPtr;
  }

  lemma {:induction false} NoMissing(cells: seq<Cell>)
    requires forall k :: 0 <= k < |cells| ==> cells[k].Val?
    ensures MissingCount(cells) == 0
  {
    if cells != [] {
      NoMissing(cells[..|cells| - 1]);
    }
  }
}
